=== FILE: README.md ===
# Local File Share: relay and chunked transfer, in Dafny

Local File Share lets browsers on one network find each other through a small
WebSocket relay and send files to each other through it. This project models
the two parts of the system that hold state and carry data:

- **The relay** (`server/server.js`):
  - It keeps a registry of connected clients, keyed by a random id of at most six characters (base-36 digits, upper-cased). The id is shorter when the random fraction has fewer than six base-36 digits.
  - It gives each new client an `init` message and broadcasts the id list (`client-list`) to every open socket on each connect and disconnect.
  - It routes six message types (`signal`, `file-offer`, `file-accept`, `file-reject`, `file-chunk`, `file-complete`) to the client named by `targetId`. Each forwarded message is rebuilt from a whitelist of fields and stamped with the sender's authenticated id.
- **The transfer protocol** (`client/app.js`):
  - The sender offers a file and, once it is accepted, cuts it into 64 KiB slices. Each slice is encoded as a base64 data URL (`FileReader.readAsDataURL`) and sent as `file-chunk` with its index, followed by one `file-complete`.
  - The receiver buffers the chunks. On `file-complete` it sorts the buffer by index, extracts and decodes each payload (`atob`), concatenates the bytes and puts the file at the top of its received list.

## Modules

| file | module | what it holds |
|---|---|---|
| `wrappers.dfy` | `Wrappers` | `Option` |
| `seqs.dfy` | `Seqs` | Concatenation of a sequence of sequences, element-wise map, and all-or-nothing collection of optional results. |
| `json.dfy` | `Json` | A parsed JSON value, and property access that yields `undefined`. |
| `server.dfy` | `Server` | The registry: a JS `Map` modelled as a map plus its insertion order. Also connect/close/message handlers, the whitelist router, the broadcast, and id generation. |
| `base64.dfy` | `Base64` | The encoding of section 4 of RFC 4648, and the forgiving decoder that `atob` applies ("forgiving-base64 decode" of the WHATWG Infra standard). |
| `dataurl.dfy` | `DataUrl` | The data URL of section 3 of RFC 2397 that `readAsDataURL` builds, and the receiver's `split(',')[1]` payload extraction. |
| `chunking.dfy` | `Chunking` | The 64 KiB partition of a file. |
| `reassembly.dfy` | `Reassembly` | The sort by chunk index (an insertion sort), per-chunk decoding, concatenation, and the array-copy loop the source uses. |
| `messages.dfy` | `Messages` | The protocol messages as a client sends and receives them, their JSON forms, and the client's reading of a parsed object. |
| `client.dfy` | `Client` | The client as a state machine over `currentTransfer`, `receivedChunks`, the device list and the received files. Each handler returns the new state and its effects (sends and alerts). |
| `session.dfy` | `Session` | The relay and the clients together: what a client sends arrives as the message the peer's handlers expect, and a whole transfer delivers the file. |

The central results are:

- `Base64.RoundTrip`: decoding inverts encoding for every byte sequence.
- `DataUrl.PayloadOfMake`: the receiver's payload extraction recovers the base64 text from the sender's data URL.
- `Chunking.PartitionConcatenates`: the slices put back together are the file.
- `Reassembly.ReassemblyRestoresFile`: the receiver rebuilds the file from the chunks, whatever order they arrive in.
- `Session.RelayDelivers`: the relay is transparent for every protocol message.
- `Session.TransferDeliversFile`: the whole receive side of a transfer ends with the exact bytes in the received list.

## Behaviour of the code worth knowing

- **One registry.** The server has one global registry and no rooms or hosts. `init` carries only `clientId` and `totalClients`, and `client-list` carries only `clients`.
- **No sender check.** The router forwards any message of a relayed type to any registered, open target, whoever sent it. `Server.HandleMessage` states exactly that condition.
- **No count check at completion.** Nothing compares the number of buffered chunks with `totalChunks`, which only feeds the progress bar. `Session.TruncatedTransferGoesUnnoticed` shows the result: if only the first `k` chunks arrive, the receiver stores the shorter file under the offer's declared size and raises no alert.
- **One buffer for all senders.** There is one `receivedChunks` array, and every `file-chunk` appends to it, whoever sent it. `Client.HandleFileChunk` and `Client.ChunksAccumulate` state this.
- **Payload extraction.** The receiver takes `chunk.split(',')[1]`: the text between the first and second comma, or the rest of the string when there is only one comma. `DataUrl.Payload` models this and `DataUrl.PayloadIsSecondField` states it. On every data URL a sender builds this is the whole base64 text, because base64 text holds no comma (`DataUrl.PayloadOfMake`).
- **Declared size.** The received-file entry records the `fileSize` from the offer, not the number of bytes reassembled.
- **Id collisions.** Nothing prevents two connections from drawing the same id. The second connection overwrites the first entry and keeps its position in the list. When the first socket later closes, its handler deletes the entry, which now belongs to the second connection. `Server.Put` and `Server.OnClose` state these map effects.

## Model

| member | source | states |
|---|---|---|
| Json.Member | server/server.js:75 | Reading a field of a parsed message gives a value exactly when the message is an object that has that field, and then gives that field's value. |
| Server.Put | server/server.js:39 | `clients.set` adds the id and sets its entry, leaving every other entry alone. A new id goes to the end of the iteration order, and an existing id keeps its place. The registry invariant (order lists each key once) is kept. |
| Server.Without | server/server.js:63 | Deleting from the iteration order removes exactly the deleted id and keeps the other ids in their order: an absent id changes nothing, and in a list without duplicates the id's one position is cut out. The list stays free of duplicates. |
| Server.Remove | server/server.js:63 | `clients.delete` removes exactly that key, keeps the other entries unchanged, and preserves the registry invariant. The iteration order loses exactly that id's position, and is unchanged when the id is absent. |
| Server.InitMessage | server/server.js:43-47 | The `init` object has exactly the fields `type`, `clientId` and `totalClients`, and a reader of those fields gets `init`, the new id and the count. |
| Server.ClientListMessage | server/server.js:143-147 | The `client-list` object has exactly the fields `type` and `clients`, and `clients` is an array of the registered ids as strings, in insertion order. |
| Server.SendToOpen | server/server.js:149-153 | Sending to the open sockets among some ids reaches each open one with the same message and reaches nobody else. Each recipient gets it once when the ids are distinct. |
| Server.Broadcast | server/server.js:142-154 | The client-list broadcast reaches every open client exactly once and no other client. |
| Server.OnConnect | server/server.js:37-51 | A connection registers its id as open and leaves other entries alone. It sends `init` first, to the new client, carrying the registry size after insertion. What follows is exactly the broadcast of the new registry: every open client, the new one included, gets the client list once, and no socket that is not open gets it. |
| Server.OnClose | server/server.js:62-66 | A close removes exactly that id and keeps the other ids in their registration order, so the next list omits only that id. The messages sent are exactly the broadcast of the new registry: the client list goes once to every remaining open client, to no socket that is not open, and never to the closed id. |
| Server.Rebuild | server/server.js:76-129 | The forwarded object has `type`, the authenticated `senderId`, and those whitelisted fields of the type that the incoming object has, copied verbatim. It never has a `targetId`. |
| Server.Forward | server/server.js:134-139 | One delivery, to the target, exactly when the target names a registered open socket. Otherwise nothing is delivered. |
| Server.RelayedType | server/server.js:75 | A message is routed when its `type` is one of the six relayed types, and only then. |
| Server.HandleMessage | server/server.js:74-131 | At most one delivery. There is one exactly when the type is relayed and `targetId` is a string naming an open client. It goes to that client and carries the rebuilt message. |
| Server.OnMessage | server/server.js:53-60 | A frame never changes the registry. An unparsable frame sends nothing. |
| Server.Step | server/server.js:37-71 | Every event keeps the registry invariant. Messages leave the registry unchanged. |
| Server.FirstClientAlone | server/server.js:37-39 | The first client to join an empty server is the only registered client, and its socket is open. |
| Server.ConnectedRegistry | server/server.js:38-39 | Connecting a new id adds exactly that id, open, at the end of the iteration order, and changes no other entry. |
| Server.TwoClientsSeeEachOther | server/server.js:37-51 | After two connections, the second gets `init` with a total of 2, and both get the list of both ids in connection order. |
| Server.Substring | server/server.js:158 | For two ends inside the string, `substring` yields the characters between them, whichever end comes first. It never yields more characters than the string has. |
| Server.SubstringSwap | server/server.js:158 | Swapping the two ends of `substring` gives the same text. |
| Server.SubstringClamps | server/server.js:158 | An end below zero counts as zero and an end past the string counts as its length. |
| Server.ToUpper | server/server.js:158 | `toUpperCase` keeps the length, maps each lower-case ASCII letter to its capital (code point minus 32), and leaves every other character as it is. |
| Server.GenerateId | server/server.js:157-159 | The id consists of the first (up to six) base-36 digits of the random fraction, upper-cased. It has six characters when the fraction has at least six digits and fewer otherwise, it uses only `0-9A-Z`, and it holds those digits in order. |
| Base64.Value | client/app.js:368 | A character has a sextet value exactly when it is in the base64 alphabet. |
| Base64.Char | client/app.js:308 | Each sextet encodes to an alphabet character that decodes back to it. |
| Base64.Encode | client/app.js:308 | The encoded text has length `4 * ceil(n / 3)` and consists of alphabet characters and `=`. |
| Base64.Decode | client/app.js:368 | `atob` yields at most three bytes for every four characters of input, and the empty text decodes to no bytes. |
| Base64.DecodeRejectsForeignChar | client/app.js:367-377 | `atob` fails on any character outside the alphabet, whitespace and `=`. |
| Base64.OctetsOfSextets | client/app.js:368 | Regrouping the sextets of any byte sequence into bytes gives that byte sequence back. |
| Base64.ValuesOfChars | client/app.js:368 | Reading back the characters of any sextet sequence gives that sextet sequence. |
| Base64.RoundTrip | client/app.js:308 | For every byte sequence, `atob` of its base64 encoding succeeds and returns exactly those bytes. |
| DataUrl.Split | client/app.js:363 | `split(',')` gives at least one part. No part holds a comma, and joining the parts with commas gives back the string. |
| DataUrl.SplitJoin | client/app.js:363 | Splitting comma-joined comma-free parts gives those parts back. |
| DataUrl.Payload | client/app.js:361-364 | The extracted payload holds no comma. A chunk without a comma is used whole. |
| DataUrl.PayloadIsSecondField | client/app.js:362-363 | With a comma present, the payload is the second comma-separated field, not everything after the first comma. |
| DataUrl.Make | client/app.js:308 | The data URL is `data:`, the media type, `;base64,` and the base64 text of the content, in that order. When the media type holds no comma, the comma before the base64 text is the only one. |
| DataUrl.PayloadOfMake | client/app.js:308 | Extracting the payload of the data URL the sender builds gives exactly the base64 text of the slice. |
| Chunking.ChunkCount | client/app.js:279-280 | The chunk count is zero exactly for an empty file. Otherwise it is the least `n` with `n * 65536 >= size`. |
| Chunking.ChunksTile | client/app.js:286-289 | The slice bounds start at 0 and end at the file size. Each slice ends where the next begins, and every slice is non-empty. |
| Chunking.Slice | client/app.js:287-289 | Every slice but the last has 65536 bytes, and the last has the remainder. Slice `i` holds the file's bytes from `i * 65536` on. |
| Chunking.SlicesPrefix | client/app.js:286-289 | The first `k` slices concatenated are the file's first `min(k * 65536, size)` bytes. |
| Chunking.PartitionConcatenates | client/app.js:286-289 | All slices concatenated are the file. |
| Chunking.TwoHundredThousandBytes | client/app.js:279-289 | A 200000-byte file goes out as 4 chunks, the last carrying 3392 bytes. |
| Reassembly.Insert | client/app.js:349 | Inserting into a sorted buffer keeps it sorted by index and keeps its entries. |
| Reassembly.SortByIndex | client/app.js:349 | The sort leaves the buffer ordered by index and a permutation of the buffer. |
| Reassembly.InsertStable | client/app.js:349 | An inserted entry goes behind every entry with the same index, and those entries keep their order. |
| Reassembly.SortStable | client/app.js:349 | The sort is stable, as the platform's array sort is: for every index, the entries with that index appear in the order they arrived. Two senders writing into one buffer can produce equal indices. |
| Reassembly.SortOrderIndependent | client/app.js:349 | For chunks with distinct indices, the sorted buffer does not depend on arrival order. |
| Reassembly.SortKeepsSorted | client/app.js:349 | A buffer already in index order with distinct indices is left as it is. |
| Reassembly.DecodeChunk | client/app.js:357-373 | A chunk without a comma is decoded whole. A chunk with a comma has its second comma-separated field decoded. |
| Reassembly.DecodeChunkOfDataUrl | client/app.js:357-373 | A chunk holding a data URL with a comma-free media type decodes to exactly the bytes the URL was made from, whatever its index. |
| Reassembly.DecodeAll | client/app.js:356-378 | Decoding succeeds exactly when every chunk decodes. It then gives one byte sequence per chunk, in buffer order. |
| Reassembly.Reassemble | client/app.js:349-390 | Reassembly fails exactly when some buffered chunk does not decode, whatever the other chunks hold. Otherwise the file is as long as the decoded chunks together. |
| Reassembly.ReassembleOrderIndependent | client/app.js:349-390 | For chunks with distinct indices, the reassembled file does not depend on arrival order. |
| Reassembly.SentEntryDecodes | client/app.js:287-308 | The payload of the chunk sent for slice `i` decodes to exactly slice `i`. |
| Reassembly.ReassemblyRestoresFile | client/app.js:349-390 | Any arrival order of the chunks a sender emits for a file reassembles to exactly that file. |
| Reassembly.ReassemblyOfFirstChunks | client/app.js:349-390 | Any arrival order of only the first `k` chunks reassembles without error to the first `min(k * 65536, size)` bytes. |
| Reassembly.Combine | client/app.js:380-390 | The total-size pass and the array-copy loop produce the concatenation of the decoded chunks in order. |
| Messages.OutboundJson | client/app.js:204-318 | Every object a client sends has its message's `type` and no `senderId`. It has a `targetId`, naming the target, exactly when the message has a target; an answer with no known peer leaves the field out. Offers carry name, size and type, chunks carry data, index and total, and accept, reject and complete carry nothing more. |
| Messages.Parse | client/app.js:71-115 | Whatever the client reads from an object carries the object's own `type` string. |
| Messages.ParseInbound | client/app.js:71-115 | Every message the server can deliver reads back as itself. An unhandled type reads back as itself when the client has no case for it. |
| Messages.ParseAgrees | client/app.js:71-115 | A message read from an object agrees with that object on every field the message's JSON form has. |
| Client.OtherDevices | client/app.js:129 | The device list holds exactly the listed ids other than the client's own, each as often as listed. When the own id is unknown or not listed, the list is kept as it is. |
| Client.OtherDevicesAppend | client/app.js:129 | The filter keeps list order: filtering two joined lists gives the two filtered lists, joined. |
| Client.OtherDevicesSingle | client/app.js:129 | A single listed id is kept unless it is the client's own. |
| Client.DeviceListExcludesSelf | client/app.js:82-85 | A `client-list` message replaces the device list with the other clients and changes nothing else. Before the client knows its id the list is shown whole. Nothing is sent. |
| Client.HandleMessage | client/app.js:71-115 | `init` sets the client's id to the one the server assigned and changes nothing else. `client-list` replaces the device list with the other clients. A message never changes the selected file or the socket state. Only `init` sets the client's id, only `client-list` the device list, only `file-chunk` and `file-complete` the buffer, and only `file-complete` the received list. Only `file-accept`, `file-reject` and `file-complete` cause sends or alerts, and an unrecognised type is ignored. |
| Client.Step | client/app.js:39-182 | A chosen file becomes the selection and a cancelled dialog changes nothing. A socket report sets only the socket state. A server message goes to the dispatcher. No user event changes the client's id, the device list or the received files. |
| Client.SendFileTo | client/app.js:185-222 | Without a selected file, only an alert. Otherwise the transfer slot becomes the outgoing transfer. The offer, with name, byte size and type, goes out only when the socket is open, and an alert is raised otherwise. |
| Client.HandleFileOffer | client/app.js:225-233 | An offer replaces the current transfer with the offered one and sends nothing. |
| Client.AcceptFile | client/app.js:245-259 | Accepting answers the offer's sender and empties the chunk buffer. With no current transfer nothing happens. |
| Client.RejectFile | client/app.js:262-272 | Rejecting answers the offer's sender and drops the transfer. With no current transfer nothing happens. |
| Client.ChunkStream | client/app.js:279-318 | The sender emits one chunk per slice, all to the accepter and with the same total. Chunk `i` has index `i` and a payload that decodes to slice `i`. One `file-complete` follows. |
| Client.HandleFileAccept | client/app.js:275-319 | An acceptance streams the file only when this client is the sender, and never changes the state. |
| Client.HandleFileReject | client/app.js:322-326 | A rejection alerts the user and drops the transfer. |
| Client.HandleFileChunk | client/app.js:329-333 | A chunk is appended to the buffer, from any sender, and nothing else changes. |
| Client.StoredType | client/app.js:395 | The stored MIME type is the offer's type, or `application/octet-stream` when that is empty or absent. |
| Client.ReceivedFrom | client/app.js:406-411 | The stored record holds the reassembled bytes, the sender from `file-complete` and the stored type. Name and size come from the incoming transfer, and are absent when the current transfer is an outgoing one. |
| Client.HandleFileComplete | client/app.js:344-427 | The buffer and the transfer slot are always cleared. A reassembled file is put first in the received list without alert. A chunk that does not decode, or a missing transfer, raises one alert and stores nothing. |
| Session.KindIsRelayed | server/server.js:75 | The router recognises the type of every message a client sends. |
| Session.RebuildIsRelayed | server/server.js:76-129 | The router turns every client message into exactly the object the peer reads as the same message from that sender. |
| Session.OfferRebuilt | server/server.js:85-94 | A relayed offer keeps name, size and type and carries the sender's id. |
| Session.ChunkRebuilt | server/server.js:112-121 | A relayed chunk keeps payload, index and total and carries the sender's id. |
| Session.BareRebuilt | server/server.js:96-129 | A relayed accept, reject or complete carries only its type and the sender's id. |
| Session.RelayDelivers | server/server.js:74-139 | A client's message reaches its target, as the message the target reads from that sender, exactly when the target is open. A message without a target reaches nobody. |
| Session.ConnectAnnounces | server/server.js:44-51 | A new client first reads its own `init`. Every open client then reads the id list in registration order. |
| Session.ClientLearnsItsId | client/app.js:75-85 | A client reading the `init` from its connection holds the server-assigned id. The following `client-list` then shows every other registered client, in registration order, and not itself. |
| Session.StreamArrives | server/server.js:112-121 | Each chunk the sender emits reaches an open receiver as the matching relayed chunk message. |
| Session.ChunkEntriesAreSent | client/app.js:293-299 | The relayed chunk messages become exactly the buffer entries the reassembly expects. |
| Client.ChunksAccumulate | client/app.js:329-333 | A run of chunk deliveries appends their entries in arrival order, changes nothing else and raises no alert. |
| Session.OfferReachesPeer | client/app.js:204-233 | Clicking send with a file selected and the socket open records the outgoing transfer and emits one offer. The relay delivers it to an open target, which reads it back and makes it the current incoming transfer with the file's name, byte count and type, sending nothing. |
| Session.RejectReachesSender | client/app.js:262-326 | Rejecting a pending offer drops it and answers the offering client. The relay delivers the rejection to that client, which drops its outgoing transfer with one alert, so a later acceptance streams nothing. |
| Session.AcceptAnswersOffer | client/app.js:245-259 | Accepting a pending offer answers the client that made it and empties the buffer. |
| Client.CompleteStores | client/app.js:344-416 | A `file-complete` over a buffer that reassembles stores that file first, with no alert, and resets the transfer. |
| Session.ReceiverFills | client/app.js:329-333 | After accepting (which empties the buffer), chunk messages arriving in any order fill the buffer with their entries in arrival order. Those entries rearrange the entries of the offered order, and no alert is raised. |
| Session.TransferDeliversFile | client/app.js:344-416 | Accept, the chunks in any order, then `file-complete`: the received list gains the offered file with exactly the sent bytes, no alert is raised, and the state is reset. |
| Session.OfferedFileArrivesWhole | client/app.js:204-416 | From the click on send to `file-complete`, with the chunks arriving in any order: the peer's received list starts with the file under its own name and type, with its real byte count as size and exactly its bytes, and no alert is raised. |
| Session.TruncatedTransferGoesUnnoticed | client/app.js:344-416 | If only the first `k` chunks arrive, the shorter file is stored under the declared size without any alert. |

## Left out

- HTTP routes, static files, QR code, public IP and tunnel discovery, and the local address lookup: they serve pages and links and hold no protocol state.
- DOM updates, logging, the progress bar, the transfer-speed figure and `formatFileSize`: they are display only, and the arithmetic behind them is floating point.
- Timers: the 10 ms pacing between chunks, the 3 s reconnect delay and the hide-progress delay. Events are modelled in the order they are handled. A reconnect is a `SocketChanged` event followed by a fresh `init`.
- `FileReader` callbacks: the model sends chunks in index order before `file-complete`. In the browser each chunk is sent from its own `onload`, so `file-complete` could overtake a late chunk. The resulting truncated file is what `Session.TruncatedTransferGoesUnnoticed` describes.
- `Math.random`: modelled as the sequence of base-36 digits of its fraction, passed in as a parameter.
- Client sends on a socket that is not open: the model assumes every client send leaves.
- `Messages.Parse`: an object of a handled type whose fields are missing or have another JSON type gives `None`. The browser would run the handler with `undefined` values, and that is not modelled.
- Numbers: numbers are integers, and sizes and indices are non-negative. Fractional numbers do not occur in the protocol.
- Text: strings are sequences of characters, with no UTF-16 surrogate handling. `atob`'s binary string is modelled directly as bytes.
- The `typeof chunk === 'string'` test: chunk data is always a string.
- Sort comparisons: JavaScript's `a.index - b.index` with non-numeric indices is not modelled.
- The `signal` message: the relay forwards it with its `signal` field. The client only logs it, as an unhandled type.
- `Server.OnConnect`: the socket library's readiness is an event of its own (`StateChanged`). The handler is modelled as running with the new socket open.
- Server.ToUpper: only the ASCII letters `a`-`z` are mapped. The text it upper-cases is base-36 digits, so no other lower-case character reaches it.

=== FILE: base64.dfy ===
/** Base64 as the browser applies it to file chunks.

    Encoding is the padded alphabet of section 4 of RFC 4648, which is what
    `FileReader.readAsDataURL` writes after `;base64,`. Decoding is the
    "forgiving-base64 decode" of the WHATWG Infra standard, which is what
    `atob` runs: ASCII whitespace is ignored, one or two trailing `=` are
    dropped when the length is a multiple of four, and the leftover bits of
    an incomplete final group are discarded unchecked. */
module Base64 {
  import opened Wrappers

  /** An octet of file content. */
  type byte = x: int | 0 <= x < 256

  /** One base64 digit: six bits. */
  type sextet = x: int | 0 <= x < 64

  predicate IsAlphabetChar(c: char) {
    'A' <= c <= 'Z' || 'a' <= c <= 'z' || '0' <= c <= '9' || c == '+' || c == '/'
  }

  /** The digit value of an alphabet character; `None` for any other character. */
  function Value(c: char): (r: Option<sextet>)
    ensures r.Some? <==> IsAlphabetChar(c)
  {
    if 'A' <= c <= 'Z' then Some(c as int - 'A' as int)
    else if 'a' <= c <= 'z' then Some(c as int - 'a' as int + 26)
    else if '0' <= c <= '9' then Some(c as int - '0' as int + 52)
    else if c == '+' then Some(62)
    else if c == '/' then Some(63)
    else None
  }

  /** The alphabet character that writes digit `v`; `Value` reads it back. */
  function Char(v: sextet): (c: char)
    ensures IsAlphabetChar(c)
    ensures Value(c) == Some(v)
  {
    if v < 26 then ('A' as int + v) as char
    else if v < 52 then ('a' as int + (v - 26)) as char
    else if v < 62 then ('0' as int + (v - 52)) as char
    else if v == 62 then '+'
    else '/'
  }

  function Chars(v: seq<sextet>): (s: string)
    ensures |s| == |v|
    ensures forall i :: 0 <= i < |s| ==> IsAlphabetChar(s[i])
  {
    seq(|v|, i requires 0 <= i < |v| => Char(v[i]))
  }

  /** The digits that encode `b`, before padding: four per complete group of
      three octets, then two for a final lone octet or three for a final pair. */
  function Sextets(b: seq<byte>): (v: seq<sextet>)
    ensures |v| % 4 != 1
    ensures |v| == |b| / 3 * 4 + (if |b| % 3 == 0 then 0 else |b| % 3 + 1)
    decreases |b|
  {
    if |b| == 0 then []
    else if |b| == 1 then [b[0] / 4, b[0] % 4 * 16]
    else if |b| == 2 then [b[0] / 4, b[0] % 4 * 16 + b[1] / 16, b[1] % 16 * 4]
    else [b[0] / 4, b[0] % 4 * 16 + b[1] / 16, b[1] % 16 * 4 + b[2] / 64, b[2] % 64] + Sextets(b[3..])
  }

  /** The `=` characters that complete the final group of four. */
  function Padding(n: nat): (p: string)
    ensures |p| == (3 - n % 3) % 3
    ensures forall i :: 0 <= i < |p| ==> p[i] == '='
  {
    if n % 3 == 1 then "==" else if n % 3 == 2 then "=" else ""
  }

  /** Padded base64 text of `b`. */
  function Encode(b: seq<byte>): (s: string)
    ensures |s| % 4 == 0
    ensures |s| == (|b| + 2) / 3 * 4
    ensures forall i :: 0 <= i < |s| ==> IsAlphabetChar(s[i]) || s[i] == '='
  {
    PaddedLength(|b|);
    Chars(Sextets(b)) + Padding(|b|)
  }

  /** Digits plus padding fill whole groups of four. */
  lemma PaddedLength(n: nat)
    ensures var total := n / 3 * 4 + (if n % 3 == 0 then 0 else n % 3 + 1) + (3 - n % 3) % 3;
      total == (n + 2) / 3 * 4 && total % 4 == 0
  {
    var q, r := n / 3, n % 3;
    assert n == 3 * q + r;
    if r == 0 {
      assert (n + 2) / 3 == q;
    } else {
      assert (n + 2) / 3 == q + 1;
    }
  }

  /** The octets that digits `v` stand for: three per complete group of four,
      then one for two trailing digits or two for three trailing digits, the
      bits left over being dropped. A single trailing digit cannot be decoded. */
  function Octets(v: seq<sextet>): (b: seq<byte>)
    requires |v| % 4 != 1
    ensures |b| == |v| * 3 / 4
    decreases |v|
  {
    if |v| == 0 then []
    else
      var first: byte := (v[0] as int) * 4 + v[1] / 16;
      if |v| == 2 then [first]
      else
        var second: byte := (v[1] as int) % 16 * 16 + v[2] / 4;
        if |v| == 3 then [first, second]
        else
          var third: byte := (v[2] as int) % 4 * 64 + v[3];
          [first, second, third] + Octets(v[4..])
  }

  /** Tab, line feed, form feed, carriage return and space. */
  predicate IsAsciiWhitespace(c: char) {
    c == '\t' || c == '\n' || c as int == 12 || c == '\r' || c == ' '
  }

  function RemoveWhitespace(s: string): (t: string)
    ensures |t| <= |s|
    ensures forall i :: 0 <= i < |t| ==> !IsAsciiWhitespace(t[i])
  {
    if |s| == 0 then []
    else if IsAsciiWhitespace(s[0]) then RemoveWhitespace(s[1..])
    else [s[0]] + RemoveWhitespace(s[1..])
  }

  /** Drops a trailing `==`, or else a trailing `=`. */
  function StripPadding(s: string): string {
    if |s| >= 2 && s[|s| - 2] == '=' && s[|s| - 1] == '=' then s[..|s| - 2]
    else if |s| >= 1 && s[|s| - 1] == '=' then s[..|s| - 1]
    else s
  }

  /** The digit values of `s`, or `None` when some character is not in the alphabet. */
  function Values(s: string): (r: Option<seq<sextet>>)
    ensures r.Some? <==> forall i :: 0 <= i < |s| ==> IsAlphabetChar(s[i])
    ensures r.Some? ==> |r.value| == |s|
  {
    if |s| == 0 then Some([])
    else match Values(s[1..])
      case None => None
      case Some(rest) =>
        match Value(s[0])
        case None => None
        case Some(v) => Some([v] + rest)
  }

  /** `atob`: the decoded octets, or `None` where `atob` throws. */
  function Decode(s: string): (r: Option<seq<byte>>)
    ensures r.Some? ==> |r.value| * 4 <= |s| * 3
    ensures |s| == 0 ==> r == Some([])
  {
    var t := RemoveWhitespace(s);
    var u := if |t| % 4 == 0 then StripPadding(t) else t;
    assert |u| <= |s|;
    if |u| % 4 == 1 then None
    else match Values(u)
      case None => None
      case Some(v) =>
        assert |v| * 3 / 4 * 4 <= |v| * 3;
        Some(Octets(v))
  }

  /** A character outside the alphabet that is neither whitespace nor `=`
      makes decoding fail wherever it stands. */
  lemma DecodeRejectsForeignChar(s: string, i: nat)
    requires i < |s|
    requires !IsAlphabetChar(s[i]) && !IsAsciiWhitespace(s[i]) && s[i] != '='
    ensures Decode(s) == None
  {
    var t := RemoveWhitespace(s);
    var j := WhitespaceRemovalKeeps(s, i);
    StripPaddingKeeps(t, j);
    var u := if |t| % 4 == 0 then StripPadding(t) else t;
    assert j < |u| && !IsAlphabetChar(u[j]);
  }

  /** Stripping padding keeps every character that is not `=`. */
  lemma StripPaddingKeeps(t: string, j: nat)
    requires j < |t| && t[j] != '='
    ensures j < |StripPadding(t)| && StripPadding(t)[j] == t[j]
  {
  }

  /** Where a character that is not whitespace ends up once whitespace is removed. */
  lemma {:induction false} WhitespaceRemovalKeeps(s: string, i: nat) returns (j: nat)
    requires i < |s|
    requires !IsAsciiWhitespace(s[i])
    ensures j < |RemoveWhitespace(s)| && RemoveWhitespace(s)[j] == s[i]
    decreases i
  {
    if i == 0 {
      j := 0;
    } else {
      var j' := WhitespaceRemovalKeeps(s[1..], i - 1);
      j := if IsAsciiWhitespace(s[0]) then j' else j' + 1;
    }
  }

  /** One group of three octets survives encoding and decoding. */
  lemma GroupRoundTrip(b0: byte, b1: byte, b2: byte)
    ensures b0 / 4 * 4 + (b0 % 4 * 16 + b1 / 16) / 16 == b0
    ensures (b0 % 4 * 16 + b1 / 16) % 16 * 16 + (b1 % 16 * 4 + b2 / 64) / 4 == b1
    ensures (b1 % 16 * 4 + b2 / 64) % 4 * 64 + b2 % 64 == b2
  {
  }

  lemma {:induction false} OctetsOfSextets(b: seq<byte>)
    ensures Octets(Sextets(b)) == b
    decreases |b|
  {
    if |b| == 0 {
    } else if |b| == 1 {
      GroupRoundTrip(b[0], 0, 0);
    } else if |b| == 2 {
      GroupRoundTrip(b[0], b[1], 0);
    } else {
      var v, rest := Sextets(b), Sextets(b[3..]);
      assert v[..4] == [b[0] / 4, b[0] % 4 * 16 + b[1] / 16, b[1] % 16 * 4 + b[2] / 64, b[2] % 64];
      assert v[4..] == rest;
      OctetsOfSextets(b[3..]);
      OctetsOfGroup(v);
      GroupRoundTrip(b[0], b[1], b[2]);
      var octets := Octets(v);
      assert octets[..3] == b[..3];
      assert octets == octets[..3] + octets[3..];
      assert b == b[..3] + b[3..];
    }
  }

  /** A complete leading group of four digits gives three octets. */
  lemma OctetsOfGroup(v: seq<sextet>)
    requires |v| >= 4 && |v| % 4 != 1
    ensures |Octets(v)| >= 3 && Octets(v)[3..] == Octets(v[4..])
    ensures Octets(v)[0] == (v[0] as int) * 4 + v[1] / 16
    ensures Octets(v)[1] == (v[1] as int) % 16 * 16 + v[2] / 4
    ensures Octets(v)[2] == (v[2] as int) % 4 * 64 + v[3]
  {
  }

  lemma {:induction false} ValuesOfChars(v: seq<sextet>)
    ensures Values(Chars(v)) == Some(v)
    decreases |v|
  {
    if |v| > 0 {
      assert Chars(v)[1..] == Chars(v[1..]);
      ValuesOfChars(v[1..]);
      assert v == [v[0]] + v[1..];
    }
  }

  lemma {:induction false} NoWhitespaceUnchanged(s: string)
    requires forall i :: 0 <= i < |s| ==> !IsAsciiWhitespace(s[i])
    ensures RemoveWhitespace(s) == s
    decreases |s|
  {
    if |s| > 0 {
      NoWhitespaceUnchanged(s[1..]);
      assert s == [s[0]] + s[1..];
    }
  }

  /** Base64 text holds no whitespace. */
  lemma EncodeHasNoWhitespace(b: seq<byte>)
    ensures RemoveWhitespace(Encode(b)) == Encode(b)
  {
    var s := Encode(b);
    assert forall i :: 0 <= i < |s| ==> !IsAsciiWhitespace(s[i]);
    NoWhitespaceUnchanged(s);
  }

  /** Stripping the padding of base64 text leaves exactly the digits. */
  lemma EncodeStripsToDigits(b: seq<byte>)
    ensures StripPadding(Encode(b)) == Chars(Sextets(b))
  {
    var digits, pad := Chars(Sextets(b)), Padding(|b|);
    var s := Encode(b);
    assert s == digits + pad;
    assert |digits| > 0 ==> digits[|digits| - 1] != '=';
    if |pad| == 2 {
      assert s[..|s| - 2] == digits;
    } else if |pad| == 1 {
      assert s[..|s| - 1] == digits;
    } else {
      assert s == digits;
    }
  }

  /** Decoding undoes encoding: `atob` of `readAsDataURL`'s base64 text gives
      back exactly the octets that were read. */
  lemma RoundTrip(b: seq<byte>)
    ensures Decode(Encode(b)) == Some(b)
  {
    var s := Encode(b);
    EncodeHasNoWhitespace(b);
    EncodeStripsToDigits(b);
    ValuesOfChars(Sextets(b));
    OctetsOfSextets(b);
    assert |StripPadding(s)| % 4 != 1;
  }
}

=== FILE: chunking.dfy ===
/** How the sender cuts a file into fixed-size chunks (client/app.js, the
    accept handler): `ceil(size / 64 KiB)` chunks, chunk `i` covering the byte
    range `[i * 64 KiB, min((i + 1) * 64 KiB, size))`. */
module Chunking {
  import opened Base64
  import opened Seqs

  /** 64 * 1024 bytes. */
  const ChunkSize: nat := 65536

  /** `Math.ceil(size / ChunkSize)`. */
  function ChunkCount(size: nat): (n: nat)
    ensures n == 0 <==> size == 0
    ensures n > 0 ==> (n - 1) * ChunkSize < size <= n * ChunkSize
  {
    (size + ChunkSize - 1) / ChunkSize
  }

  /** First byte of chunk `i`. */
  function SliceStart(i: nat): nat {
    i * ChunkSize
  }

  /** One past the last byte of chunk `i` of a file of `size` bytes. */
  function SliceEnd(size: nat, i: nat): nat {
    Min((i + 1) * ChunkSize, size)
  }

  /** The ranges of consecutive chunks abut, the first starts at 0, the last
      ends at the end of the file, and none is empty: the chunks are disjoint
      and cover every byte. */
  lemma ChunksTile(size: nat)
    ensures ChunkCount(size) > 0 ==> SliceStart(0) == 0 && SliceEnd(size, ChunkCount(size) - 1) == size
    ensures forall i :: 0 <= i < ChunkCount(size) - 1 ==> SliceEnd(size, i) == SliceStart(i + 1)
    ensures forall i :: 0 <= i < ChunkCount(size) ==> SliceStart(i) < SliceEnd(size, i)
  {
  }

  /** Chunk `i` of `content`: a full `ChunkSize` bytes for every chunk but the
      last, which holds the remaining one to `ChunkSize` bytes. */
  function Slice(content: seq<byte>, i: nat): (s: seq<byte>)
    requires i < ChunkCount(|content|)
    ensures i < ChunkCount(|content|) - 1 ==> |s| == ChunkSize
    ensures i == ChunkCount(|content|) - 1 ==> |s| == |content| - i * ChunkSize
    ensures 0 < |s| <= ChunkSize
    ensures forall k :: 0 <= k < |s| ==> s[k] == content[i * ChunkSize + k]
  {
    content[SliceStart(i)..SliceEnd(|content|, i)]
  }

  /** Every chunk of `content`, in index order. */
  function Slices(content: seq<byte>): (parts: seq<seq<byte>>)
    ensures |parts| == ChunkCount(|content|)
  {
    seq(ChunkCount(|content|), i requires 0 <= i < ChunkCount(|content|) => Slice(content, i))
  }

  lemma {:induction false} SlicesPrefix(content: seq<byte>, k: nat)
    requires k <= ChunkCount(|content|)
    ensures Flatten(Slices(content)[..k]) == content[..Min(k * ChunkSize, |content|)]
    decreases k
  {
    var parts := Slices(content);
    if k > 0 {
      SlicesPrefix(content, k - 1);
      assert parts[..k][..k - 1] == parts[..k - 1];
      assert (k - 1) * ChunkSize < |content|;
      assert content[..Min(k * ChunkSize, |content|)]
          == content[..(k - 1) * ChunkSize] + Slice(content, k - 1);
    }
  }

  /** Cutting the file into chunks and concatenating them in index order gives
      the file back. */
  lemma PartitionConcatenates(content: seq<byte>)
    ensures Flatten(Slices(content)) == content
  {
    var n := ChunkCount(|content|);
    SlicesPrefix(content, n);
    assert Slices(content)[..n] == Slices(content);
  }

  /** The scenario of a 200000-byte file: four chunks, the last one 3392 bytes. */
  lemma TwoHundredThousandBytes(content: seq<byte>)
    requires |content| == 200000
    ensures ChunkCount(|content|) == 4
    ensures |Slice(content, 3)| == 3392
  {
  }
}

=== FILE: client.dfy ===
/** The browser client's transfer logic (client/app.js): the message dispatch,
    the device list, and both ends of the offer / accept-or-reject / chunks /
    complete exchange, all driven through one `currentTransfer` slot and one
    `receivedChunks` buffer. */
module Client {
  import opened Wrappers
  import opened Base64
  import opened Seqs
  import opened Messages
  import opened Reassembly
  import Chunking
  import DataUrl

  /** A selected `File`: name, bytes, and `type` (empty when unknown). */
  datatype File = File(name: string, content: seq<byte>, mimeType: string)

  /** `currentTransfer`: the sender's record names the target and the file;
      the receiver's record copies the offer. */
  datatype Transfer =
    | Sending(targetId: string, file: File)
    | Receiving(senderId: string, fileName: string, fileSize: nat, fileType: string)

  /** An entry of the received-files list. Name and size come from
      `currentTransfer`, and are `undefined` (`None`) when that record is the
      sender's own. */
  datatype ReceivedFile = ReceivedFile(
    name: Option<string>, size: Option<nat>, mimeType: string, content: seq<byte>, from: string)

  /** The user-visible alerts. */
  datatype Notice = SelectFileFirst | ConnectionNotReady | TransferRejected | ProcessingFailed

  datatype Effect = Send(msg: Outbound) | Alert(notice: Notice)

  datatype State = State(
    myId: Option<string>,
    socketOpen: bool,
    selected: Option<File>,
    current: Option<Transfer>,
    chunks: seq<ChunkEntry>,
    devices: seq<string>,
    received: seq<ReceivedFile>)

  datatype Reaction = Reaction(state: State, effects: seq<Effect>)

  /** The state on page load. */
  const Initial: State := State(None, false, None, None, [], [], [])

  const OctetStream: string := "application/octet-stream"

  /** `clients.filter(id => id !== myId)`: the devices shown, in list order. */
  function OtherDevices(clients: seq<string>, myId: Option<string>): (r: seq<string>)
    ensures forall x :: x in r <==> x in clients && myId != Some(x)
    ensures forall x :: multiset(r)[x] == if myId == Some(x) then 0 else multiset(clients)[x]
    ensures myId.None? || myId.value !in clients ==> r == clients
  {
    if |clients| == 0 then []
    else
      assert clients == [clients[0]] + clients[1..];
      var rest := OtherDevices(clients[1..], myId);
      if myId == Some(clients[0]) then rest else [clients[0]] + rest
  }

  /** The filter works element by element, so it keeps the list order: the
      devices of two lists joined are the devices of each, joined. */
  lemma {:induction false} OtherDevicesAppend(a: seq<string>, b: seq<string>, myId: Option<string>)
    ensures OtherDevices(a + b, myId) == OtherDevices(a, myId) + OtherDevices(b, myId)
  {
    if |a| == 0 {
      assert a + b == b;
    } else {
      assert (a + b)[1..] == a[1..] + b;
      OtherDevicesAppend(a[1..], b, myId);
    }
  }

  /** A single listed id is shown unless it is the client's own. */
  lemma OtherDevicesSingle(x: string, myId: Option<string>)
    ensures OtherDevices([x], myId) == if myId == Some(x) then [] else [x]
  {
    assert [x][1..] == [];
  }

  /** `sendFileTo`: without a selected file only an alert; otherwise the
      transfer slot is taken over by the new outgoing transfer, and the offer
      goes out only when the socket is open. */
  function SendFileTo(c: State, targetId: string): (r: Reaction)
    ensures c.selected.None? ==> r.state == c && r.effects == [Alert(SelectFileFirst)]
    ensures c.selected.Some? ==> r.state == c.(current := Some(Sending(targetId, c.selected.value)))
    ensures c.selected.Some? && c.socketOpen ==>
      var f := c.selected.value;
      r.effects == [Send(OfferOut(targetId, f.name, |f.content|, f.mimeType))]
    ensures c.selected.Some? && !c.socketOpen ==> r.effects == [Alert(ConnectionNotReady)]
  {
    match c.selected
    case None => Reaction(c, [Alert(SelectFileFirst)])
    case Some(f) =>
      var c' := c.(current := Some(Sending(targetId, f)));
      if c.socketOpen then Reaction(c', [Send(OfferOut(targetId, f.name, |f.content|, f.mimeType))])
      else Reaction(c', [Alert(ConnectionNotReady)])
  }

  /** `handleFileOffer`: the offer replaces whatever transfer was current. */
  function HandleFileOffer(c: State, senderId: string, fileName: string, fileSize: nat, fileType: string): (r: Reaction)
    ensures r.state == c.(current := Some(Receiving(senderId, fileName, fileSize, fileType)))
    ensures r.effects == []
  {
    Reaction(c.(current := Some(Receiving(senderId, fileName, fileSize, fileType))), [])
  }

  /** `currentTransfer.senderId`: only the receiver's record has one. */
  function PeerOf(t: Transfer): Option<string> {
    match t
    case Receiving(senderId, _, _, _) => Some(senderId)
    case Sending(_, _) => None
  }

  /** `acceptFile`: answer the offer's sender and empty the chunk buffer. With
      no current transfer the handler throws before doing anything. */
  function AcceptFile(c: State): (r: Reaction)
    ensures c.current.None? ==> r == Reaction(c, [])
    ensures c.current.Some? ==>
      && r.state == c.(chunks := [])
      && r.effects == [Send(AcceptOut(PeerOf(c.current.value)))]
  {
    match c.current
    case None => Reaction(c, [])
    case Some(t) => Reaction(c.(chunks := []), [Send(AcceptOut(PeerOf(t)))])
  }

  /** `rejectFile`: answer the offer's sender and drop the transfer. */
  function RejectFile(c: State): (r: Reaction)
    ensures c.current.None? ==> r == Reaction(c, [])
    ensures c.current.Some? ==>
      && r.state == c.(current := None)
      && r.effects == [Send(RejectOut(PeerOf(c.current.value)))]
  {
    match c.current
    case None => Reaction(c, [])
    case Some(t) => Reaction(c.(current := None), [Send(RejectOut(PeerOf(t)))])
  }

  /** Every message the sender emits once `content` is accepted: chunk `i` for
      each `i` below the chunk count, all with the same `totalChunks` and all
      to `targetId`, each carrying the data URL of slice `i`, then exactly one
      `file-complete` to the same target. */
  function ChunkStream(targetId: string, content: seq<byte>): (ms: seq<Outbound>)
    ensures |ms| == Chunking.ChunkCount(|content|) + 1
    ensures forall i :: 0 <= i < |ms| - 1 ==>
      && ms[i].ChunkOut?
      && ms[i].targetId == targetId
      && ms[i].chunkIndex == i
      && ms[i].totalChunks == Chunking.ChunkCount(|content|)
      && ms[i].chunk == SentEntry(content, i).data
      && Decode(DataUrl.Payload(ms[i].chunk)) == Some(Chunking.Slice(content, i))
    ensures ms[|ms| - 1] == CompleteOut(targetId)
  {
    var chunks := ChunkOuts(targetId, content);
    forall i | 0 <= i < |chunks| ensures Decode(DataUrl.Payload(SentEntry(content, i).data)) == Some(Chunking.Slice(content, i)) {
      SentEntryDecodes(content, i);
    }
    chunks + [CompleteOut(targetId)]
  }

  /** The `file-chunk` messages of `content`, in index order. */
  function ChunkOuts(targetId: string, content: seq<byte>): (cs: seq<Outbound>)
    ensures |cs| == Chunking.ChunkCount(|content|)
    ensures forall i :: 0 <= i < |cs| ==>
      cs[i] == ChunkOut(targetId, SentEntry(content, i).data, i, Chunking.ChunkCount(|content|))
  {
    var n := Chunking.ChunkCount(|content|);
    seq(n, i requires 0 <= i < n => ChunkOut(targetId, SentEntry(content, i).data, i, n))
  }

  function Sends(ms: seq<Outbound>): (es: seq<Effect>)
    ensures |es| == |ms| && forall i :: 0 <= i < |ms| ==> es[i] == Send(ms[i])
  {
    seq(|ms|, i requires 0 <= i < |ms| => Send(ms[i]))
  }

  /** `handleFileAccept`: when this client is sending a file, stream it to the
      client that accepted. No other record has a file to read: the handler
      throws and nothing is sent. The transfer slot is left as it is. */
  function HandleFileAccept(c: State, accepter: string): (r: Reaction)
    ensures r.state == c
    ensures c.current.Some? && c.current.value.Sending? ==>
      r.effects == Sends(ChunkStream(accepter, c.current.value.file.content))
    ensures !(c.current.Some? && c.current.value.Sending?) ==> r.effects == []
  {
    match c.current
    case Some(Sending(_, f)) => Reaction(c, Sends(ChunkStream(accepter, f.content)))
    case _ => Reaction(c, [])
  }

  /** `handleFileReject`: alert and drop the transfer, whoever rejected. */
  function HandleFileReject(c: State): (r: Reaction)
    ensures r.state == c.(current := None)
    ensures r.effects == [Alert(TransferRejected)]
  {
    Reaction(c.(current := None), [Alert(TransferRejected)])
  }

  /** `handleFileChunk`: append the chunk to the buffer, whoever sent it and
      whatever transfer is current. */
  function HandleFileChunk(c: State, index: int, data: string): (r: Reaction)
    ensures r.state == c.(chunks := c.chunks + [ChunkEntry(index, data)])
    ensures |r.state.chunks| == |c.chunks| + 1 && r.state.chunks[..|c.chunks|] == c.chunks
    ensures r.effects == []
  {
    Reaction(c.(chunks := c.chunks + [ChunkEntry(index, data)]), [])
  }

  /** The MIME type stored with a received file: `fileType ||
      'application/octet-stream'`, a missing type counting as empty. */
  function StoredType(t: Transfer): (m: string)
    ensures t.Receiving? && t.fileType != "" ==> m == t.fileType
    ensures t.Sending? || t.fileType == "" ==> m == OctetStream
  {
    match t
    case Receiving(_, _, _, fileType) => if fileType == "" then OctetStream else fileType
    case Sending(_, _) => OctetStream
  }

  /** The received-files entry built from `content` under transfer `t`. */
  function ReceivedFrom(t: Transfer, content: seq<byte>, from: string): (r: ReceivedFile)
    ensures r.content == content && r.from == from && r.mimeType == StoredType(t)
    ensures t.Receiving? ==> r.name == Some(t.fileName) && r.size == Some(t.fileSize)
    ensures t.Sending? ==> r.name.None? && r.size.None?
  {
    match t
    case Receiving(_, fileName, fileSize, _) =>
      ReceivedFile(Some(fileName), Some(fileSize), StoredType(t), content, from)
    case Sending(_, _) => ReceivedFile(None, None, StoredType(t), content, from)
  }

  /** `handleFileComplete`: reassemble the buffer and put the file at the top
      of the received list. If a chunk does not decode, or there is no current
      transfer to name the file, only an alert. Either way the buffer is
      emptied and the transfer dropped. */
  function HandleFileComplete(c: State, senderId: string): (r: Reaction)
    ensures r.state.chunks == [] && r.state.current == None
    ensures r.state == c.(chunks := [], current := None, received := r.state.received)
    ensures Reassemble(c.chunks).Some? && c.current.Some? ==>
      && r.state.received == [ReceivedFrom(c.current.value, Reassemble(c.chunks).value, senderId)] + c.received
      && r.effects == []
    ensures Reassemble(c.chunks).None? || c.current.None? ==>
      r.state.received == c.received && r.effects == [Alert(ProcessingFailed)]
  {
    var reset := c.(chunks := [], current := None);
    match Reassemble(c.chunks)
    case None => Reaction(reset, [Alert(ProcessingFailed)])
    case Some(content) =>
      match c.current
      case None => Reaction(reset, [Alert(ProcessingFailed)])
      case Some(t) => Reaction(reset.(received := [ReceivedFrom(t, content, senderId)] + c.received), [])
  }

  /** `handleMessage`: dispatch on the message type. A message never touches
      the selected file or the socket; only `init` sets the client's id, only
      `client-list` the device list, only `file-chunk` and `file-complete`
      the buffer, and only `file-complete` the received list. Only
      `file-accept`, `file-reject` and `file-complete` have effects, and an
      unrecognised type is ignored. */
  function HandleMessage(c: State, m: Inbound): (r: Reaction)
    ensures r.state.selected == c.selected && r.state.socketOpen == c.socketOpen
    ensures m.Init? ==> r == Reaction(c.(myId := Some(m.clientId)), [])
    ensures m.ClientList? ==> r == Reaction(c.(devices := OtherDevices(m.clients, c.myId)), [])
    ensures !m.Init? ==> r.state.myId == c.myId
    ensures !m.ClientList? ==> r.state.devices == c.devices
    ensures !m.Chunk? && !m.Complete? ==> r.state.chunks == c.chunks
    ensures !m.Complete? ==> r.state.received == c.received
    ensures r.effects != [] ==> m.Accept? || m.Reject? || m.Complete?
    ensures m.Unhandled? ==> r == Reaction(c, [])
    ensures m.Offer? ==> r == HandleFileOffer(c, m.senderId, m.fileName, m.fileSize, m.fileType)
    ensures m.Accept? ==> r == HandleFileAccept(c, m.senderId)
    ensures m.Reject? ==> r == HandleFileReject(c)
    ensures m.Chunk? ==> r == HandleFileChunk(c, m.chunkIndex, m.chunk)
    ensures m.Complete? ==> r == HandleFileComplete(c, m.senderId)
  {
    match m
    case Init(id, _) => Reaction(c.(myId := Some(id)), [])
    case ClientList(ids) => Reaction(c.(devices := OtherDevices(ids, c.myId)), [])
    case Offer(s, name, size, kind) => HandleFileOffer(c, s, name, size, kind)
    case Accept(s) => HandleFileAccept(c, s)
    case Reject(_) => HandleFileReject(c)
    case Chunk(_, data, index, _) => HandleFileChunk(c, index, data)
    case Complete(s) => HandleFileComplete(c, s)
    case Unhandled(_) => Reaction(c, [])
  }

  /** What the client reacts to: a message from the server, or the user and
      the socket. */
  datatype Event =
    | Deliver(msg: Inbound)
      /** The file input changed; `None` when the dialog was cancelled. */
    | FileSelected(file: Option<File>)
    | SendClicked(targetId: string)
    | AcceptClicked
    | RejectClicked
    | SocketChanged(open: bool)

  /** One event. Only a chosen file changes the selection, and a cancelled
      dialog changes nothing. Only the socket reports its state. User events
      never touch the client's id, the device list or the received files. */
  function Step(c: State, e: Event): (r: Reaction)
    ensures e.Deliver? ==> r == HandleMessage(c, e.msg)
    ensures e.FileSelected? ==> r == Reaction(if e.file.Some? then c.(selected := e.file) else c, [])
    ensures e.SocketChanged? ==> r == Reaction(c.(socketOpen := e.open), [])
    ensures !e.FileSelected? ==> r.state.selected == c.selected
    ensures !e.SocketChanged? ==> r.state.socketOpen == c.socketOpen
    ensures !e.Deliver? ==>
      && r.state.myId == c.myId && r.state.devices == c.devices && r.state.received == c.received
  {
    match e
    case Deliver(m) => HandleMessage(c, m)
    case FileSelected(f) => Reaction(if f.Some? then c.(selected := f) else c, [])
    case SendClicked(t) => SendFileTo(c, t)
    case AcceptClicked => AcceptFile(c)
    case RejectClicked => RejectFile(c)
    case SocketChanged(open) => Reaction(c.(socketOpen := open), [])
  }

  /** The events applied in order; the effects of each follow those of the
      events before it. */
  function Run(c: State, events: seq<Event>): Reaction {
    if |events| == 0 then Reaction(c, [])
    else
      var before := Run(c, events[..|events| - 1]);
      var last := Step(before.state, events[|events| - 1]);
      Reaction(last.state, before.effects + last.effects)
  }

  /** One more event: its step runs on the state the earlier events left. */
  lemma RunSnoc(c: State, events: seq<Event>, e: Event)
    ensures Run(c, events + [e]) ==
      var before := Run(c, events);
      var last := Step(before.state, e);
      Reaction(last.state, before.effects + last.effects)
  {
    assert (events + [e])[..|events|] == events;
  }

  /** The buffer entry a chunk message becomes. */
  function EntryOf(m: Inbound): ChunkEntry {
    if m.Chunk? then ChunkEntry(m.chunkIndex, m.chunk) else ChunkEntry(0, "")
  }

  /** The events of receiving `ms` from the server, in order. */
  function Deliveries(ms: seq<Inbound>): (es: seq<Event>)
    ensures |es| == |ms| && forall i :: 0 <= i < |ms| ==> es[i] == Deliver(ms[i])
  {
    seq(|ms|, i requires 0 <= i < |ms| => Deliver(ms[i]))
  }

  /** One chunk message appends its entry and does nothing else. */
  lemma ChunkStep(c: State, m: Inbound)
    requires m.Chunk?
    ensures Step(c, Deliver(m)) == Reaction(c.(chunks := c.chunks + [EntryOf(m)]), [])
  {
    DeliverStep(c, m);
  }

  /** A chunk message after events that left state `s` and no effect appends
      its entry to the buffer of `s`, and adds no effect. */
  lemma RunChunk(c: State, events: seq<Event>, s: State, m: Inbound)
    requires m.Chunk?
    requires Run(c, events) == Reaction(s, [])
    ensures Run(c, events + [Deliver(m)]) == Reaction(s.(chunks := s.chunks + [EntryOf(m)]), [])
  {
    RunSnoc(c, events, Deliver(m));
    ChunkStep(s, m);
  }

  /** Delivering chunk messages, of any sender and in any order, appends
      their entries to the buffer, in arrival order, changes nothing else
      and alerts nobody. */
  lemma {:induction false} ChunksAccumulate(c: State, ms: seq<Inbound>)
    requires forall i :: 0 <= i < |ms| ==> ms[i].Chunk?
    ensures Run(c, Deliveries(ms)) ==
      Reaction(c.(chunks := c.chunks + MapSeq(EntryOf, ms)), [])
    decreases |ms|
  {
    if |ms| > 0 {
      var ms' := ms[..|ms| - 1];
      var last := ms[|ms| - 1];
      var es' := Deliveries(ms');
      ChunksAccumulate(c, ms');
      var s := c.(chunks := c.chunks + MapSeq(EntryOf, ms'));
      RunChunk(c, es', s, last);
      assert Deliveries(ms) == es' + [Deliver(last)];
      assert c.chunks + MapSeq(EntryOf, ms) == s.chunks + [EntryOf(last)] by {
        assert MapSeq(EntryOf, ms) == MapSeq(EntryOf, ms') + [EntryOf(last)];
      }
    } else {
      assert MapSeq(EntryOf, ms) == [];
    }
  }

  /** `file-complete` once the buffer reassembles to `content`: the file is
      stored first in the list, the rest of the state is reset, and there is
      no alert. */
  lemma CompleteStores(c: State, sender: string, content: seq<byte>)
    requires c.current.Some? && Reassemble(c.chunks) == Some(content)
    ensures Step(c, Deliver(Complete(sender))) ==
      Reaction(
        c.(chunks := [], current := None, received := [ReceivedFrom(c.current.value, content, sender)] + c.received),
        [])
  {
    CompleteStep(c, sender);
    var r := HandleFileComplete(c, sender);
    var stored := [ReceivedFrom(c.current.value, content, sender)] + c.received;
    assert r.state == c.(chunks := [], current := None, received := stored);
  }

  lemma CompleteStep(c: State, sender: string)
    ensures Step(c, Deliver(Complete(sender))) == HandleFileComplete(c, sender)
  {
    DeliverStep(c, Complete(sender));
  }

  lemma DeliverStep(c: State, m: Inbound)
    ensures Step(c, Deliver(m)) == HandleMessage(c, m)
  {
  }

  /** The update of the device list shows exactly the listed ids other than
      this client's own, each as often as listed. */
  lemma DeviceListExcludesSelf(c: State, ids: seq<string>)
    ensures var r := Step(c, Deliver(ClientList(ids)));
      && r.effects == []
      && r.state == c.(devices := OtherDevices(ids, c.myId))
      && (forall x :: x in r.state.devices <==> x in ids && c.myId != Some(x))
      && (forall x :: c.myId != Some(x) ==> multiset(r.state.devices)[x] == multiset(ids)[x])
      && (c.myId.None? ==> r.state.devices == ids)
  {
  }
}

=== FILE: dataurl.dfy ===
/** The `data:` URL text that carries one chunk, and how the receiver gets the
    base64 payload back out of it.

    The sender reads each chunk with `readAsDataURL`, which produces the
    `data:[<mediatype>];base64,<data>` form of section 3 of RFC 2397. The
    receiver keeps `chunk.split(',')[1]` when the text contains a comma, and
    the whole text otherwise. */
module DataUrl {
  import opened Base64

  /** The media type written for a chunk: `File.slice` gives the chunk blob no
      type of its own, and the browser then writes the generic binary type. */
  const SliceMediaType: string := "application/octet-stream"

  /** `readAsDataURL` of a blob of type `mediaType` holding `content`. */
  function Make(mediaType: string, content: seq<byte>): (url: string)
    ensures |url| == 13 + |mediaType| + |Encode(content)|
    ensures url[..5] == "data:" && url[5..5 + |mediaType|] == mediaType
    ensures url[5 + |mediaType|..13 + |mediaType|] == ";base64,"
    ensures url[13 + |mediaType|..] == Encode(content)
    ensures ',' !in mediaType ==> forall i :: 0 <= i < |url| && url[i] == ',' ==> i == 12 + |mediaType|
  {
    var url := "data:" + mediaType + ";base64," + Encode(content);
    assert forall i :: 13 + |mediaType| <= i < |url| ==> url[i] == Encode(content)[i - 13 - |mediaType|];
    assert forall i :: 5 <= i < 5 + |mediaType| ==> url[i] == mediaType[i - 5];
    url
  }

  /** The fields between commas, as `String.prototype.split(',')` returns them. */
  function Split(s: string): (parts: seq<string>)
    ensures |parts| >= 1
    ensures forall i :: 0 <= i < |parts| ==> ',' !in parts[i]
    ensures Join(parts) == s
  {
    if |s| == 0 then [""]
    else
      var rest := Split(s[1..]);
      if s[0] == ',' then [""] + rest
      else [[s[0]] + rest[0]] + rest[1..]
  }

  /** The fields written out with a comma between consecutive ones. */
  function Join(parts: seq<string>): string
    requires |parts| >= 1
  {
    if |parts| == 1 then parts[0] else parts[0] + "," + Join(parts[1..])
  }

  /** The text the receiver passes to `atob`: the second comma-separated field
      when there is a comma, the whole text when there is none. */
  function Payload(s: string): (p: string)
    ensures ',' !in p
    ensures ',' !in s ==> p == s
  {
    if ',' in s then Split(s)[1] else s
  }

  lemma {:induction false} SplitWithoutComma(s: string)
    requires ',' !in s
    ensures Split(s) == [s]
    decreases |s|
  {
    if |s| > 0 {
      SplitWithoutComma(s[1..]);
      assert s == [s[0]] + s[1..];
    }
  }

  lemma {:induction false} SplitAtFirstComma(x: string, y: string)
    requires ',' !in x
    ensures Split(x + "," + y) == [x] + Split(y)
    decreases |x|
  {
    if |x| == 0 {
      assert (x + "," + y)[1..] == y;
    } else {
      assert (x + "," + y)[1..] == x[1..] + "," + y;
      SplitAtFirstComma(x[1..], y);
      assert x == [x[0]] + x[1..];
    }
  }

  /** Splitting recovers the fields that were joined, as long as none of them
      contains a comma. */
  lemma {:induction false} SplitJoin(parts: seq<string>)
    requires |parts| >= 1
    requires forall i :: 0 <= i < |parts| ==> ',' !in parts[i]
    ensures Split(Join(parts)) == parts
    decreases |parts|
  {
    if |parts| == 1 {
      SplitWithoutComma(parts[0]);
    } else {
      SplitJoin(parts[1..]);
      SplitAtFirstComma(parts[0], Join(parts[1..]));
      assert parts == [parts[0]] + parts[1..];
    }
  }

  lemma FieldsWithoutComma(head: string, field: string, rest: seq<string>)
    requires ',' !in head && ',' !in field
    requires forall i :: 0 <= i < |rest| ==> ',' !in rest[i]
    ensures forall i :: 0 <= i < |[head, field] + rest| ==> ',' !in ([head, field] + rest)[i]
  {
    var parts := [head, field] + rest;
    forall i | 0 <= i < |parts| ensures ',' !in parts[i] {
      if i == 0 {
        assert parts[i] == head;
      } else if i == 1 {
        assert parts[i] == field;
      } else {
        assert parts[i] == rest[i - 2];
      }
    }
  }

  /** For text with at least one comma, the payload is what stands between the
      first comma and the second one, or the end of the text. */
  lemma PayloadIsSecondField(head: string, field: string, rest: seq<string>)
    requires ',' !in head && ',' !in field
    requires forall i :: 0 <= i < |rest| ==> ',' !in rest[i]
    ensures Payload(Join([head, field] + rest)) == field
  {
    var parts := [head, field] + rest;
    FieldsWithoutComma(head, field, rest);
    SplitJoin(parts);
    var s := Join(parts);
    assert s == head + "," + Join(parts[1..]);
    assert s[|head|] == ',';
    assert Payload(s) == Split(s)[1] == parts[1];
  }

  /** The receiver's prefix stripping returns exactly the base64 text that
      `readAsDataURL` wrote, for any media type without a comma. */
  lemma PayloadOfMake(mediaType: string, content: seq<byte>)
    requires ',' !in mediaType
    ensures Payload(Make(mediaType, content)) == Encode(content)
  {
    var head := "data:" + mediaType + ";base64";
    var body := Encode(content);
    assert ',' !in body by {
      forall i | 0 <= i < |body| ensures body[i] != ',' {
        assert IsAlphabetChar(body[i]) || body[i] == '=';
      }
    }
    assert ',' !in head by {
      forall i | 0 <= i < |head| ensures head[i] != ',' {
        if i >= 5 && i < 5 + |mediaType| {
          assert head[i] == mediaType[i - 5];
        }
      }
    }
    assert Make(mediaType, content) == Join([head, body]);
    PayloadIsSecondField(head, body, []);
    assert [head, body] + [] == [head, body];
  }
}

=== FILE: json.dfy ===
/** A parsed JSON message, as `JSON.parse` hands it to the handlers. Numbers
    are integers: every number the protocol carries (sizes, indices, counts)
    is one. */
module Json {
  import opened Wrappers

  datatype Value =
    | Null
    | Bool(b: bool)
    | Num(n: int)
    | Str(s: string)
    | Arr(items: seq<Value>)
    | Obj(fields: map<string, Value>)

  /** `v.key` for one of the protocol's field names: the member of an object,
      and `undefined` (here `None`) for a missing member or a non-object. The
      protocol's field names are not properties of strings, arrays or numbers,
      and reading one from `null` throws, which the caller turns into the same
      "nothing happens". */
  function Member(v: Value, key: string): (r: Option<Value>)
    ensures r.Some? <==> v.Obj? && key in v.fields
    ensures r.Some? ==> r.value == v.fields[key]
  {
    match v
    case Obj(fields) => if key in fields then Some(fields[key]) else None
    case _ => None
  }

  /** The JSON array of the given strings. */
  function Strings(ss: seq<string>): (v: Value)
    ensures v.Arr? && |v.items| == |ss|
    ensures forall i :: 0 <= i < |ss| ==> v.items[i] == Str(ss[i])
  {
    Arr(seq(|ss|, i requires 0 <= i < |ss| => Str(ss[i])))
  }
}

=== FILE: messages.dfy ===
/** The protocol messages as the client sees them, and their JSON forms.

    `Outbound` is what a client puts on its socket (with a `targetId` and no
    `senderId`); `Inbound` is what reaches a client (with the `senderId` the
    server stamped, and no `targetId`). */
module Messages {
  import opened Wrappers
  import opened Json

  datatype Outbound =
    | OfferOut(targetId: string, fileName: string, fileSize: nat, fileType: string)
      /** `to` is `None` when the client had no peer id to answer, in which
          case the `targetId` field is left out of the JSON text. */
    | AcceptOut(to: Option<string>)
    | RejectOut(to: Option<string>)
    | ChunkOut(targetId: string, chunk: string, chunkIndex: nat, totalChunks: nat)
    | CompleteOut(targetId: string)

  datatype Inbound =
    | Init(clientId: string, totalClients: nat)
    | ClientList(clients: seq<string>)
    | Offer(senderId: string, fileName: string, fileSize: nat, fileType: string)
    | Accept(senderId: string)
    | Reject(senderId: string)
    | Chunk(senderId: string, chunk: string, chunkIndex: nat, totalChunks: nat)
    | Complete(senderId: string)
      /** `signal`, or any other type the client only logs. */
    | Unhandled(kind: string)

  /** The `targetId` an outbound message names, if any. */
  function Target(m: Outbound): Option<string> {
    match m
    case AcceptOut(to) => to
    case RejectOut(to) => to
    case _ => Some(m.targetId)
  }

  /** `{"targetId": t}` when there is a target, `{}` otherwise. */
  function TargetField(to: Option<string>): map<string, Value> {
    match to
    case Some(t) => map["targetId" := Str(t)]
    case None => map[]
  }

  /** The `type` string each outbound message carries. */
  function Kind(m: Outbound): string {
    match m
    case OfferOut(_, _, _, _) => "file-offer"
    case AcceptOut(_) => "file-accept"
    case RejectOut(_) => "file-reject"
    case ChunkOut(_, _, _, _) => "file-chunk"
    case CompleteOut(_) => "file-complete"
  }

  /** The object a client serialises for `m`: its type, a `targetId` exactly
      when there is a target to name, the payload fields of its type, and
      never a `senderId`, which only the relay writes. */
  function OutboundJson(m: Outbound): (v: Value)
    ensures v.Obj? && "senderId" !in v.fields
    ensures Member(v, "type") == Some(Str(Kind(m)))
    ensures "targetId" in v.fields <==> Target(m).Some?
    ensures Target(m).Some? ==> v.fields["targetId"] == Str(Target(m).value)
    ensures m.OfferOut? ==>
      && Member(v, "fileName") == Some(Str(m.fileName))
      && Member(v, "fileSize") == Some(Num(m.fileSize))
      && Member(v, "fileType") == Some(Str(m.fileType))
    ensures m.ChunkOut? ==>
      && Member(v, "chunk") == Some(Str(m.chunk))
      && Member(v, "chunkIndex") == Some(Num(m.chunkIndex))
      && Member(v, "totalChunks") == Some(Num(m.totalChunks))
    ensures m.AcceptOut? || m.RejectOut? || m.CompleteOut? ==> v.fields.Keys <= {"type", "targetId"}
  {
    match m
    case OfferOut(t, name, size, kind) =>
      Obj(map["type" := Str("file-offer"), "targetId" := Str(t), "fileName" := Str(name),
              "fileSize" := Num(size), "fileType" := Str(kind)])
    case AcceptOut(to) => Obj(TargetField(to)["type" := Str("file-accept")])
    case RejectOut(to) => Obj(TargetField(to)["type" := Str("file-reject")])
    case ChunkOut(t, chunk, i, n) =>
      Obj(map["type" := Str("file-chunk"), "targetId" := Str(t), "chunk" := Str(chunk),
              "chunkIndex" := Num(i), "totalChunks" := Num(n)])
    case CompleteOut(t) => Obj(map["type" := Str("file-complete"), "targetId" := Str(t)])
  }

  /** The object a client parses into `m`. */
  function InboundJson(m: Inbound): Value {
    match m
    case Init(id, total) =>
      Obj(map["type" := Str("init"), "clientId" := Str(id), "totalClients" := Num(total)])
    case ClientList(ids) => Obj(map["type" := Str("client-list"), "clients" := Strings(ids)])
    case Offer(s, name, size, kind) =>
      Obj(map["type" := Str("file-offer"), "senderId" := Str(s), "fileName" := Str(name),
              "fileSize" := Num(size), "fileType" := Str(kind)])
    case Accept(s) => Obj(map["type" := Str("file-accept"), "senderId" := Str(s)])
    case Reject(s) => Obj(map["type" := Str("file-reject"), "senderId" := Str(s)])
    case Chunk(s, chunk, i, n) =>
      Obj(map["type" := Str("file-chunk"), "senderId" := Str(s), "chunk" := Str(chunk),
              "chunkIndex" := Num(i), "totalChunks" := Num(n)])
    case Complete(s) => Obj(map["type" := Str("file-complete"), "senderId" := Str(s)])
    case Unhandled(kind) => Obj(map["type" := Str(kind)])
  }

  /** What the peer receives when `sender` sends `m` through the relay. */
  function Relayed(sender: string, m: Outbound): Inbound {
    match m
    case OfferOut(_, name, size, kind) => Offer(sender, name, size, kind)
    case AcceptOut(_) => Accept(sender)
    case RejectOut(_) => Reject(sender)
    case ChunkOut(_, chunk, i, n) => Chunk(sender, chunk, i, n)
    case CompleteOut(_) => Complete(sender)
  }

  /** The types the client's dispatch has a case for. */
  const HandledTypes: set<string> :=
    {"init", "client-list", "file-offer", "file-accept", "file-reject", "file-chunk", "file-complete"}

  /** The strings of a JSON array, if every item is one. */
  function StringItems(items: seq<Value>): (r: Option<seq<string>>)
    ensures r.Some? <==> forall i :: 0 <= i < |items| ==> items[i].Str?
    ensures r.Some? ==> |r.value| == |items| && forall i :: 0 <= i < |items| ==> items[i] == Str(r.value[i])
  {
    if |items| == 0 then Some([])
    else match (items[|items| - 1], StringItems(items[..|items| - 1]))
      case (Str(last), Some(init)) => Some(init + [last])
      case _ => None
  }

  function StrField(v: Value, key: string): Option<string> {
    match Member(v, key)
    case Some(Str(s)) => Some(s)
    case _ => None
  }

  function NatField(v: Value, key: string): Option<nat> {
    match Member(v, key)
    case Some(Num(n)) => if n >= 0 then Some(n) else None
    case _ => None
  }

  /** The message a client reads from a parsed object: dispatch on `type`,
      then the fields that type's handler uses. `None` when there is no
      string `type`, or when a handled type lacks one of its fields or has
      it with another JSON type. */
  function Parse(v: Value): (r: Option<Inbound>)
    ensures r.Some? ==> Member(v, "type") == Some(Str(Type(r.value)))
  {
    match StrField(v, "type")
    case None => None
    case Some(t) =>
      if t == "init" then
        match (StrField(v, "clientId"), NatField(v, "totalClients"))
        case (Some(id), Some(n)) => Some(Init(id, n))
        case _ => None
      else if t == "client-list" then
        match Member(v, "clients")
        case Some(Arr(items)) =>
          (match StringItems(items)
           case Some(ids) => Some(ClientList(ids))
           case None => None)
        case _ => None
      else if t == "file-offer" then
        match (StrField(v, "senderId"), StrField(v, "fileName"), NatField(v, "fileSize"), StrField(v, "fileType"))
        case (Some(s), Some(name), Some(size), Some(kind)) => Some(Offer(s, name, size, kind))
        case _ => None
      else if t == "file-accept" then
        match StrField(v, "senderId")
        case Some(s) => Some(Accept(s))
        case None => None
      else if t == "file-reject" then
        match StrField(v, "senderId")
        case Some(s) => Some(Reject(s))
        case None => None
      else if t == "file-chunk" then
        match (StrField(v, "senderId"), StrField(v, "chunk"), NatField(v, "chunkIndex"), NatField(v, "totalChunks"))
        case (Some(s), Some(chunk), Some(i), Some(n)) => Some(Chunk(s, chunk, i, n))
        case _ => None
      else if t == "file-complete" then
        match StrField(v, "senderId")
        case Some(s) => Some(Complete(s))
        case None => None
      else Some(Unhandled(t))
  }

  /** The `type` string of an inbound message. */
  function Type(m: Inbound): string {
    match m
    case Init(_, _) => "init"
    case ClientList(_) => "client-list"
    case Offer(_, _, _, _) => "file-offer"
    case Accept(_) => "file-accept"
    case Reject(_) => "file-reject"
    case Chunk(_, _, _, _) => "file-chunk"
    case Complete(_) => "file-complete"
    case Unhandled(kind) => kind
  }

  /** The array of strings reads back as those strings. */
  lemma {:induction false} StringItemsOfStrings(ss: seq<string>)
    ensures StringItems(Strings(ss).items) == Some(ss)
    decreases |ss|
  {
    if |ss| > 0 {
      var items := Strings(ss).items;
      var init := ss[..|ss| - 1];
      assert items[..|items| - 1] == Strings(init).items;
      StringItemsOfStrings(init);
      assert init + [ss[|ss| - 1]] == ss;
    }
  }

  /** Every message the server can send reads back as itself; an unhandled
      message does when its type is not one the client dispatches on. */
  lemma ParseInbound(m: Inbound)
    requires m.Unhandled? ==> m.kind !in HandledTypes
    ensures Parse(InboundJson(m)) == Some(m)
  {
    match m
    case Init(_, _) => ParseInit(m);
    case ClientList(ids) => ParseClientList(ids);
    case Offer(_, _, _, _) => ParseOffer(m);
    case Accept(_) => ParseAnswer(m);
    case Reject(_) => ParseAnswer(m);
    case Chunk(_, _, _, _) => ParseChunk(m);
    case Complete(_) => ParseComplete(m);
    case Unhandled(kind) => ParseUnhandled(kind);
  }

  lemma ParseInit(m: Inbound)
    requires m.Init?
    ensures Parse(InboundJson(m)) == Some(m)
  {
    var v := InboundJson(m);
    assert StrField(v, "type") == Some("init");
    assert StrField(v, "clientId") == Some(m.clientId) && NatField(v, "totalClients") == Some(m.totalClients);
  }

  lemma ParseClientList(ids: seq<string>)
    ensures Parse(InboundJson(ClientList(ids))) == Some(ClientList(ids))
  {
    var v := InboundJson(ClientList(ids));
    assert StrField(v, "type") == Some("client-list");
    assert Member(v, "clients") == Some(Strings(ids));
    StringItemsOfStrings(ids);
  }

  lemma ParseOffer(m: Inbound)
    requires m.Offer?
    ensures Parse(InboundJson(m)) == Some(m)
  {
    var v := InboundJson(m);
    assert StrField(v, "type") == Some("file-offer");
    assert StrField(v, "senderId") == Some(m.senderId) && StrField(v, "fileName") == Some(m.fileName);
    assert NatField(v, "fileSize") == Some(m.fileSize) && StrField(v, "fileType") == Some(m.fileType);
  }

  lemma ParseAnswer(m: Inbound)
    requires m.Accept? || m.Reject?
    ensures Parse(InboundJson(m)) == Some(m)
  {
    var v := InboundJson(m);
    assert StrField(v, "type") == Some(if m.Accept? then "file-accept" else "file-reject");
    assert StrField(v, "senderId") == Some(m.senderId);
  }

  lemma ParseChunk(m: Inbound)
    requires m.Chunk?
    ensures Parse(InboundJson(m)) == Some(m)
  {
    var v := InboundJson(m);
    assert StrField(v, "type") == Some("file-chunk");
    assert StrField(v, "senderId") == Some(m.senderId) && StrField(v, "chunk") == Some(m.chunk);
    assert NatField(v, "chunkIndex") == Some(m.chunkIndex) && NatField(v, "totalChunks") == Some(m.totalChunks);
  }

  lemma ParseComplete(m: Inbound)
    requires m.Complete?
    ensures Parse(InboundJson(m)) == Some(m)
  {
    var v := InboundJson(m);
    assert StrField(v, "type") == Some("file-complete");
    assert StrField(v, "senderId") == Some(m.senderId);
  }

  lemma ParseUnhandled(kind: string)
    requires kind !in HandledTypes
    ensures Parse(InboundJson(Unhandled(kind))) == Some(Unhandled(kind))
  {
    assert StrField(InboundJson(Unhandled(kind)), "type") == Some(kind);
  }

  /** What a client reads is what the object says: every field of the
      message's own JSON form is present in the object with that value. */
  lemma ParseAgrees(v: Value)
    requires Parse(v).Some?
    ensures var m := Parse(v).value;
      forall k :: k in InboundJson(m).fields ==> Member(v, k) == Some(InboundJson(m).fields[k])
  {
    var m := Parse(v).value;
    if m.ClientList? {
      var items := Member(v, "clients").value.items;
      assert StringItems(items) == Some(m.clients);
      assert Strings(m.clients).items == items;
    }
  }
}

=== FILE: reassembly.dfy ===
/** The receiver's reassembly (client/app.js, the completion handler): sort the
    buffered chunks by index, strip each chunk's data-URL prefix, base64-decode
    it, and concatenate the results. Decoding is all or nothing: the first chunk
    that `atob` rejects abandons the whole file. */
module Reassembly {
  import opened Wrappers
  import opened Base64
  import opened Seqs
  import DataUrl
  import Chunking

  /** One `{index, data}` element of `receivedChunks`. */
  datatype ChunkEntry = ChunkEntry(index: int, data: string)

  ghost predicate Sorted(s: seq<ChunkEntry>) {
    forall i, j :: 0 <= i < j < |s| ==> s[i].index <= s[j].index
  }

  ghost predicate DistinctIndices(s: seq<ChunkEntry>) {
    forall i, j :: 0 <= i < j < |s| ==> s[i].index != s[j].index
  }

  /** `e` placed after every entry whose index is not larger than its own. */
  function Insert(s: seq<ChunkEntry>, e: ChunkEntry): (r: seq<ChunkEntry>)
    requires Sorted(s)
    ensures Sorted(r)
    ensures multiset(r) == multiset(s) + multiset{e}
    decreases |s|
  {
    if |s| == 0 || s[|s| - 1].index <= e.index then s + [e]
    else
      var init, last := s[..|s| - 1], s[|s| - 1];
      assert s == init + [last];
      var r' := Insert(init, e);
      assert forall k :: 0 <= k < |init| ==> init[k].index <= last.index;
      BoundedByPermutation(r', init + [e], last.index);
      SortedAppend(r', last);
      r' + [last]
  }

  /** A rearrangement of entries all at most `bound` is all at most `bound`. */
  lemma BoundedByPermutation(r: seq<ChunkEntry>, s: seq<ChunkEntry>, bound: int)
    requires multiset(r) == multiset(s)
    requires forall k :: 0 <= k < |s| ==> s[k].index <= bound
    ensures forall k :: 0 <= k < |r| ==> r[k].index <= bound
  {
    forall k | 0 <= k < |r| ensures r[k].index <= bound {
      assert r[k] in multiset(s);
    }
  }

  /** An entry at least as large as every entry of a sorted buffer can follow it. */
  lemma SortedAppend(r: seq<ChunkEntry>, x: ChunkEntry)
    requires Sorted(r)
    requires forall k :: 0 <= k < |r| ==> r[k].index <= x.index
    ensures Sorted(r + [x])
  {
  }

  /** `receivedChunks.sort((a, b) => a.index - b.index)`: the same entries,
      in ascending index order. */
  function SortByIndex(s: seq<ChunkEntry>): (r: seq<ChunkEntry>)
    ensures Sorted(r)
    ensures multiset(r) == multiset(s)
    decreases |s|
  {
    if |s| == 0 then []
    else
      assert s == s[..|s| - 1] + [s[|s| - 1]];
      Insert(SortByIndex(s[..|s| - 1]), s[|s| - 1])
  }

  /** The entries of `s` whose index is `v`, in their order in `s`. */
  function WithIndex(s: seq<ChunkEntry>, v: int): seq<ChunkEntry>
    decreases |s|
  {
    if |s| == 0 then []
    else WithIndex(s[..|s| - 1], v) + (if s[|s| - 1].index == v then [s[|s| - 1]] else [])
  }

  /** `Insert` places `e` behind every entry with the same index: among the
      entries of each index, the old ones keep their order and `e` comes last. */
  lemma {:induction false} InsertStable(s: seq<ChunkEntry>, e: ChunkEntry, v: int)
    requires Sorted(s)
    ensures WithIndex(Insert(s, e), v) == WithIndex(s, v) + (if e.index == v then [e] else [])
    decreases |s|
  {
    if |s| == 0 || s[|s| - 1].index <= e.index {
      assert Insert(s, e) == s + [e];
      WithIndexSnoc(s, e, v);
    } else {
      var init, last := s[..|s| - 1], s[|s| - 1];
      assert s == init + [last];
      var r' := Insert(init, e);
      assert Insert(s, e) == r' + [last];
      InsertStable(init, e, v);
      SwapPastLarger(init, r', e, last, v);
    }
  }

  /** The step of `InsertStable` where `e` moves in front of a larger `last`. */
  lemma SwapPastLarger(init: seq<ChunkEntry>, r': seq<ChunkEntry>, e: ChunkEntry, last: ChunkEntry, v: int)
    requires e.index < last.index
    requires WithIndex(r', v) == WithIndex(init, v) + (if e.index == v then [e] else [])
    ensures WithIndex(r' + [last], v) == WithIndex(init + [last], v) + (if e.index == v then [e] else [])
  {
    var a := WithIndex(init, v);
    WithIndexSnoc(r', last, v);
    WithIndexSnoc(init, last, v);
    if e.index == v {
      assert WithIndex(r' + [last], v) == a + [e];
      assert WithIndex(init + [last], v) == a;
    } else if last.index == v {
      assert WithIndex(r', v) == a;
      assert WithIndex(r' + [last], v) == a + [last];
      assert WithIndex(init + [last], v) == a + [last];
    } else {
      assert WithIndex(r' + [last], v) == a;
      assert WithIndex(init + [last], v) == a;
    }
  }

  lemma WithIndexSnoc(s: seq<ChunkEntry>, e: ChunkEntry, v: int)
    ensures e.index == v ==> WithIndex(s + [e], v) == WithIndex(s, v) + [e]
    ensures e.index != v ==> WithIndex(s + [e], v) == WithIndex(s, v)
  {
    assert (s + [e])[..|s|] == s;
  }

  /** The sort is stable, as `Array.prototype.sort` is: the entries of each
      index keep the order they arrived in. Together with `Sorted` and the
      permutation this fixes the sorted buffer completely, also when two
      entries share an index. */
  lemma {:induction false} SortStable(s: seq<ChunkEntry>, v: int)
    ensures WithIndex(SortByIndex(s), v) == WithIndex(s, v)
    decreases |s|
  {
    if |s| > 0 {
      var init, last := s[..|s| - 1], s[|s| - 1];
      SortStable(init, v);
      InsertStable(SortByIndex(init), last, v);
    }
  }

  /** An entry occurs at most once in a buffer whose indices are distinct. */
  lemma {:induction false} DistinctOccursOnce(s: seq<ChunkEntry>, x: ChunkEntry)
    requires DistinctIndices(s)
    ensures multiset(s)[x] <= 1
    decreases |s|
  {
    if |s| > 0 {
      var init, last := s[..|s| - 1], s[|s| - 1];
      assert s == init + [last];
      DistinctOccursOnce(init, x);
      if x == last {
        assert x !in init;
      }
    }
  }

  /** Distinct indices survive any rearrangement of the buffer. */
  lemma DistinctPermutation(a: seq<ChunkEntry>, b: seq<ChunkEntry>)
    requires DistinctIndices(a)
    requires multiset(a) == multiset(b)
    ensures DistinctIndices(b)
  {
    forall i, j | 0 <= i < j < |b| ensures b[i].index != b[j].index {
      assert b[i] in multiset(a) && b[j] in multiset(a);
      if b[i] == b[j] {
        assert b == b[..j] + [b[j]] + b[j + 1..];
        assert b[i] in b[..j];
        assert multiset(b)[b[i]] >= 2;
        DistinctOccursOnce(a, b[i]);
        assert false;
      } else {
        var p :| 0 <= p < |a| && a[p] == b[i];
        var q :| 0 <= q < |a| && a[q] == b[j];
        assert p != q;
      }
    }
  }

  /** The last entries of two sorted arrangements of the same entries with
      distinct indices coincide. */
  lemma SortedSameLast(a: seq<ChunkEntry>, b: seq<ChunkEntry>)
    requires |a| > 0
    requires Sorted(a) && Sorted(b) && DistinctIndices(a)
    requires multiset(a) == multiset(b)
    ensures |b| == |a| && a[|a| - 1] == b[|b| - 1]
  {
    assert |b| == |multiset(b)| == |multiset(a)| == |a|;
    var n := |a|;
    var x, y := a[n - 1], b[n - 1];
    assert y in multiset(a);
    var p :| 0 <= p < n && a[p] == y;
    assert x in multiset(b);
    var q :| 0 <= q < n && b[q] == x;
    assert x.index <= y.index;
    assert y.index <= x.index;
    assert p == n - 1;
  }

  /** Dropping the last entry keeps the order and the distinctness, and
      removes one copy of that entry. */
  lemma DropLast(s: seq<ChunkEntry>)
    requires |s| > 0
    ensures Sorted(s) ==> Sorted(s[..|s| - 1])
    ensures DistinctIndices(s) ==> DistinctIndices(s[..|s| - 1])
    ensures multiset(s) == multiset(s[..|s| - 1]) + multiset{s[|s| - 1]}
  {
    assert s == s[..|s| - 1] + [s[|s| - 1]];
  }

  /** Two sorted arrangements of the same entries with distinct indices are
      the same arrangement. */
  lemma {:induction false} SortedUnique(a: seq<ChunkEntry>, b: seq<ChunkEntry>)
    requires Sorted(a) && Sorted(b) && DistinctIndices(a)
    requires multiset(a) == multiset(b)
    ensures a == b
    decreases |a|
  {
    if |a| == 0 {
      assert |b| == |multiset(b)| == 0;
    } else {
      SortedSameLast(a, b);
      var n := |a|;
      var x := a[n - 1];
      var a', b' := a[..n - 1], b[..n - 1];
      DropLast(a);
      DropLast(b);
      assert a == a' + [x] && b == b' + [x] + [];
      RemoveOccurrence(a', x, b', []);
      assert b' + [] == b';
      SortedUnique(a', b');
    }
  }

  /** Sorting does not depend on the order chunks arrived in, as long as no
      two of them claim the same index. */
  lemma SortOrderIndependent(a: seq<ChunkEntry>, b: seq<ChunkEntry>)
    requires DistinctIndices(a)
    requires multiset(a) == multiset(b)
    ensures SortByIndex(a) == SortByIndex(b)
  {
    DistinctPermutation(a, SortByIndex(a));
    SortedUnique(SortByIndex(a), SortByIndex(b));
  }

  /** A buffer that is already in strictly ascending index order is left as it is. */
  lemma SortKeepsSorted(s: seq<ChunkEntry>)
    requires Sorted(s) && DistinctIndices(s)
    ensures SortByIndex(s) == s
  {
    SortedUnique(s, SortByIndex(s));
  }

  /** `atob` of the chunk's payload: the text after the data URL's first
      comma, up to any second comma, or the whole chunk when it has no comma. */
  function DecodeChunk(e: ChunkEntry): (r: Option<seq<byte>>)
    ensures ',' !in e.data ==> r == Decode(e.data)
    ensures ',' in e.data ==> r == Decode(DataUrl.Split(e.data)[1])
  {
    Decode(DataUrl.Payload(e.data))
  }

  /** A chunk holding a data URL with a comma-free media type decodes to
      exactly the bytes the URL was made from, whatever its index. */
  lemma DecodeChunkOfDataUrl(i: int, mediaType: string, content: seq<byte>)
    requires ',' !in mediaType
    ensures DecodeChunk(ChunkEntry(i, DataUrl.Make(mediaType, content))) == Some(content)
  {
    DataUrl.PayloadOfMake(mediaType, content);
    RoundTrip(content);
  }

  /** The decoded bytes of every entry, in order, or `None` as soon as one
      entry does not decode. */
  function DecodeAll(s: seq<ChunkEntry>): (r: Option<seq<seq<byte>>>)
    ensures r.Some? <==> forall i :: 0 <= i < |s| ==> DecodeChunk(s[i]).Some?
    ensures r.Some? ==> |r.value| == |s| && forall i :: 0 <= i < |s| ==> DecodeChunk(s[i]) == Some(r.value[i])
  {
    Collect(s, DecodeChunk)
  }

  /** Length of the decoded entry; zero when it does not decode. */
  function DecodedLength(e: ChunkEntry): nat {
    match DecodeChunk(e)
    case None => 0
    case Some(p) => |p|
  }

  /** Sum of the decoded lengths of the entries, in whatever order they are in. */
  function DecodedSize(s: seq<ChunkEntry>): nat {
    if |s| == 0 then 0 else DecodedSize(s[..|s| - 1]) + DecodedLength(s[|s| - 1])
  }

  lemma {:induction false} DecodedSizeInsert(s: seq<ChunkEntry>, e: ChunkEntry)
    requires Sorted(s)
    ensures DecodedSize(Insert(s, e)) == DecodedSize(s) + DecodedLength(e)
    decreases |s|
  {
    if |s| == 0 || s[|s| - 1].index <= e.index {
      assert (s + [e])[..|s|] == s;
    } else {
      var init := s[..|s| - 1];
      DecodedSizeInsert(init, e);
      var r := Insert(init, e) + [s[|s| - 1]];
      assert r[..|r| - 1] == Insert(init, e);
    }
  }

  lemma {:induction false} DecodedSizeSort(s: seq<ChunkEntry>)
    ensures DecodedSize(SortByIndex(s)) == DecodedSize(s)
    decreases |s|
  {
    if |s| > 0 {
      DecodedSizeSort(s[..|s| - 1]);
      DecodedSizeInsert(SortByIndex(s[..|s| - 1]), s[|s| - 1]);
    }
  }

  lemma {:induction false} DecodedSizeOfParts(s: seq<ChunkEntry>)
    requires DecodeAll(s).Some?
    ensures TotalLength(DecodeAll(s).value) == DecodedSize(s)
    decreases |s|
  {
    if |s| > 0 {
      var init := s[..|s| - 1];
      DecodedSizeOfParts(init);
      var parts := DecodeAll(s).value;
      assert parts[..|parts| - 1] == DecodeAll(init).value;
    }
  }

  /** The file the receiver builds from its buffer: it fails exactly when some
      buffered chunk does not decode, whatever the other chunks hold, and
      otherwise is as long as the decoded chunks together. */
  function Reassemble(buffer: seq<ChunkEntry>): (r: Option<seq<byte>>)
    ensures r.None? <==> exists e :: e in buffer && DecodeChunk(e).None?
    ensures r.Some? ==> |r.value| == DecodedSize(buffer)
  {
    SortedDecodesIffAll(buffer);
    match DecodeAll(SortByIndex(buffer))
    case None => None
    case Some(parts) =>
      DecodedSizeOfParts(SortByIndex(buffer));
      DecodedSizeSort(buffer);
      Some(Flatten(parts))
  }

  /** The sorted buffer decodes exactly when every buffered chunk does. */
  lemma SortedDecodesIffAll(buffer: seq<ChunkEntry>)
    ensures DecodeAll(SortByIndex(buffer)).None? <==> exists e :: e in buffer && DecodeChunk(e).None?
  {
    var sorted := SortByIndex(buffer);
    SameMembers(buffer, sorted);
    DecodeFailsIffMember(sorted);
  }

  /** Decoding a sequence of entries fails exactly when one of them does not
      decode. */
  lemma DecodeFailsIffMember(s: seq<ChunkEntry>)
    ensures DecodeAll(s).None? <==> exists e :: e in s && DecodeChunk(e).None?
  {
    if DecodeAll(s).None? {
      var i :| 0 <= i < |s| && DecodeChunk(s[i]).None?;
      assert s[i] in s;
    } else {
      forall e | e in s ensures DecodeChunk(e).Some? {
        var i :| 0 <= i < |s| && s[i] == e;
      }
    }
  }

  /** Two arrangements of the same entries have the same members. */
  lemma SameMembers(a: seq<ChunkEntry>, b: seq<ChunkEntry>)
    requires multiset(a) == multiset(b)
    ensures forall e :: e in a <==> e in b
  {
    forall e ensures e in a <==> e in b {
      assert e in a <==> e in multiset(a);
      assert e in b <==> e in multiset(b);
    }
  }

  /** Any arrival order of chunks with distinct indices yields the same file. */
  lemma ReassembleOrderIndependent(a: seq<ChunkEntry>, b: seq<ChunkEntry>)
    requires DistinctIndices(a)
    requires multiset(a) == multiset(b)
    ensures Reassemble(a) == Reassemble(b)
  {
    SortOrderIndependent(a, b);
  }

  /** The buffer entry the sender's chunk `i` of `content` becomes. */
  function SentEntry(content: seq<byte>, i: nat): ChunkEntry
    requires i < Chunking.ChunkCount(|content|)
  {
    ChunkEntry(i, DataUrl.Make(DataUrl.SliceMediaType, Chunking.Slice(content, i)))
  }

  /** Every chunk the sender emits for `content`, in index order. */
  function SentEntries(content: seq<byte>): (s: seq<ChunkEntry>)
    ensures |s| == Chunking.ChunkCount(|content|)
  {
    seq(Chunking.ChunkCount(|content|), i requires 0 <= i < Chunking.ChunkCount(|content|) => SentEntry(content, i))
  }

  lemma SentEntriesDistinct(content: seq<byte>)
    ensures Sorted(SentEntries(content)) && DistinctIndices(SentEntries(content))
  {
  }

  /** Each chunk the sender emits decodes to the slice it was read from. */
  lemma SentEntryDecodes(content: seq<byte>, i: nat)
    requires i < Chunking.ChunkCount(|content|)
    ensures DecodeChunk(SentEntry(content, i)) == Some(Chunking.Slice(content, i))
  {
    var slice := Chunking.Slice(content, i);
    assert ',' !in DataUrl.SliceMediaType;
    DataUrl.PayloadOfMake(DataUrl.SliceMediaType, slice);
    RoundTrip(slice);
  }

  /** Decoding the sender's chunks in index order yields the file's slices. */
  lemma DecodeSentEntries(content: seq<byte>)
    ensures DecodeAll(SentEntries(content)) == Some(Chunking.Slices(content))
  {
    var sent := SentEntries(content);
    var slices := Chunking.Slices(content);
    forall i | 0 <= i < |sent| ensures DecodeChunk(sent[i]) == Some(slices[i]) {
      SentEntryDecodes(content, i);
    }
    var decoded := DecodeAll(sent);
    assert decoded.Some?;
    assert decoded.value == slices;
  }

  /** Reassembling every chunk the sender emitted, received in any order,
      reproduces the original file exactly. */
  lemma ReassemblyRestoresFile(content: seq<byte>, arrived: seq<ChunkEntry>)
    requires multiset(arrived) == multiset(SentEntries(content))
    ensures Reassemble(arrived) == Some(content)
  {
    var sent := SentEntries(content);
    SentEntriesDistinct(content);
    ReassembleOrderIndependent(sent, arrived);
    SortKeepsSorted(sent);
    DecodeSentEntries(content);
    Chunking.PartitionConcatenates(content);
  }

  /** Only the first `k` chunks, in any order: reassembly still succeeds and
      yields just the bytes those chunks cover. Nothing compares the number
      of chunks with `totalChunks`, so a transfer cut short is not noticed. */
  lemma ReassemblyOfFirstChunks(content: seq<byte>, k: nat, arrived: seq<ChunkEntry>)
    requires k <= Chunking.ChunkCount(|content|)
    requires multiset(arrived) == multiset(SentEntries(content)[..k])
    ensures Reassemble(arrived) == Some(content[..Min(k * Chunking.ChunkSize, |content|)])
  {
    var sent := SentEntries(content)[..k];
    SentPrefixInOrder(content, k);
    ReassembleOrderIndependent(sent, arrived);
    SortKeepsSorted(sent);
    SentPrefixDecodes(content, k);
    Chunking.SlicesPrefix(content, k);
  }

  /** The first `k` chunks a sender emits are in order, with distinct indices. */
  lemma SentPrefixInOrder(content: seq<byte>, k: nat)
    requires k <= Chunking.ChunkCount(|content|)
    ensures Sorted(SentEntries(content)[..k]) && DistinctIndices(SentEntries(content)[..k])
  {
    SentEntriesDistinct(content);
  }

  /** The first `k` chunks a sender emits decode to the first `k` slices. */
  lemma SentPrefixDecodes(content: seq<byte>, k: nat)
    requires k <= Chunking.ChunkCount(|content|)
    ensures DecodeAll(SentEntries(content)[..k]) == Some(Chunking.Slices(content)[..k])
  {
    var sent := SentEntries(content)[..k];
    var slices := Chunking.Slices(content)[..k];
    forall i | 0 <= i < |sent| ensures DecodeChunk(sent[i]) == Some(slices[i]) {
      assert sent[i] == SentEntry(content, i);
      assert slices[i] == Chunking.Slice(content, i);
      SentEntryDecodes(content, i);
    }
    var decoded := DecodeAll(sent);
    assert decoded.Some?;
    assert decoded.value == slices;
  }

  /** The copy loop of the completion handler: sum the decoded lengths, allocate
      one array of that size, and copy each decoded chunk in at a running offset. */
  method Combine(parts: seq<seq<byte>>) returns (combined: seq<byte>)
    ensures combined == Flatten(parts)
  {
    var totalSize := 0;
    for k := 0 to |parts|
      invariant totalSize == TotalLength(parts[..k])
    {
      assert parts[..k + 1][..k] == parts[..k];
      totalSize := totalSize + |parts[k]|;
    }
    assert parts[..|parts|] == parts;
    var buffer := new byte[totalSize];
    var offset := 0;
    for k := 0 to |parts|
      invariant offset == TotalLength(parts[..k]) <= totalSize
      invariant buffer[..offset] == Flatten(parts[..k])
    {
      var chunk := parts[k];
      assert parts[..k + 1][..k] == parts[..k];
      TotalLengthPrefix(parts, k + 1);
      CopyAt(buffer, offset, chunk);
      assert buffer[..offset + |chunk|] == buffer[..offset] + buffer[offset..offset + |chunk|];
      offset := offset + |chunk|;
    }
    combined := buffer[..];
  }

  /** Copies `chunk` into `buffer` at `offset`, leaving the bytes before it alone. */
  method CopyAt(buffer: array<byte>, offset: nat, chunk: seq<byte>)
    requires offset + |chunk| <= buffer.Length
    modifies buffer
    ensures buffer[..offset] == old(buffer[..offset])
    ensures buffer[offset..offset + |chunk|] == chunk
  {
    for j := 0 to |chunk|
      invariant buffer[..offset] == old(buffer[..offset])
      invariant buffer[offset..offset + j] == chunk[..j]
    {
      buffer[offset + j] := chunk[j];
      assert buffer[offset..offset + j + 1] == buffer[offset..offset + j] + [chunk[j]];
    }
  }
}

=== FILE: seqs.dfy ===
/** Sequence helpers shared by the chunking, reassembly and session models. */
module Seqs {
  import opened Wrappers

  function Min(a: int, b: int): int {
    if a <= b then a else b
  }

  /** Sum of the lengths of `parts`. */
  function TotalLength<T>(parts: seq<seq<T>>): nat {
    if |parts| == 0 then 0 else TotalLength(parts[..|parts| - 1]) + |parts[|parts| - 1]|
  }

  /** The concatenation of `parts`, first to last. */
  function Flatten<T>(parts: seq<seq<T>>): (r: seq<T>)
    ensures |r| == TotalLength(parts)
  {
    if |parts| == 0 then [] else Flatten(parts[..|parts| - 1]) + parts[|parts| - 1]
  }

  lemma {:induction false} FlattenAppend<T>(a: seq<seq<T>>, b: seq<seq<T>>)
    ensures Flatten(a + b) == Flatten(a) + Flatten(b)
    decreases |b|
  {
    if |b| == 0 {
      assert a + b == a;
    } else {
      var b' := b[..|b| - 1];
      assert (a + b)[..|a + b| - 1] == a + b';
      FlattenAppend(a, b');
    }
  }

  lemma {:induction false} TotalLengthPrefix<T>(parts: seq<seq<T>>, k: nat)
    requires k <= |parts|
    ensures TotalLength(parts[..k]) <= TotalLength(parts)
    decreases |parts|
  {
    if k < |parts| {
      var p := parts[..|parts| - 1];
      assert p[..k] == parts[..k];
      TotalLengthPrefix(p, k);
    } else {
      assert parts[..k] == parts;
    }
  }

  /** `f` applied to every element, in order. */
  function MapSeq<A, B>(f: A -> B, s: seq<A>): (r: seq<B>)
    ensures |r| == |s|
    ensures forall i :: 0 <= i < |s| ==> r[i] == f(s[i])
  {
    seq(|s|, i requires 0 <= i < |s| => f(s[i]))
  }

  lemma MapSeqAppend<A, B>(f: A -> B, a: seq<A>, b: seq<A>)
    ensures MapSeq(f, a + b) == MapSeq(f, a) + MapSeq(f, b)
  {
  }

  /** Mapping commutes with taking a prefix. */
  lemma MapSeqPrefix<A, B>(f: A -> B, s: seq<A>, k: nat)
    requires k <= |s|
    ensures MapSeq(f, s[..k]) == MapSeq(f, s)[..k]
  {
  }

  /** Removing one occurrence of `x` from two equal multisets leaves equal multisets. */
  lemma RemoveOccurrence<A>(a': seq<A>, x: A, b1: seq<A>, b2: seq<A>)
    requires multiset(a' + [x]) == multiset(b1 + [x] + b2)
    ensures multiset(a') == multiset(b1 + b2)
  {
    calc {
      multiset(a');
      multiset(a' + [x]) - multiset{x};
      multiset(b1 + [x] + b2) - multiset{x};
      { assert multiset(b1 + [x] + b2) == multiset(b1 + b2) + multiset{x}; }
      multiset(b1 + b2);
    }
  }

  /** Rearranging the input rearranges the output the same way: the image of a
      permutation is a permutation of the image. */
  lemma {:induction false} MapSeqPermutation<A, B>(f: A -> B, a: seq<A>, b: seq<A>)
    requires multiset(a) == multiset(b)
    ensures multiset(MapSeq(f, a)) == multiset(MapSeq(f, b))
    decreases |a|
  {
    if |a| == 0 {
      assert |b| == |multiset(b)| == 0;
    } else {
      var x := a[|a| - 1];
      var a' := a[..|a| - 1];
      assert a == a' + [x];
      assert x in multiset(b);
      var k :| 0 <= k < |b| && b[k] == x;
      var b1, b2 := b[..k], b[k + 1..];
      assert b == b1 + [x] + b2;
      RemoveOccurrence(a', x, b1, b2);
      MapSeqPermutation(f, a', b1 + b2);
      MapSeqAppend(f, a', [x]);
      MapSeqAppend(f, b1 + [x], b2);
      MapSeqAppend(f, b1, [x]);
      MapSeqAppend(f, b1, b2);
    }
  }

  /** `f` of every element, in order, or `None` when `f` fails on some element. */
  function Collect<T, U>(s: seq<T>, f: T -> Option<U>): (r: Option<seq<U>>)
    ensures r.Some? <==> forall i :: 0 <= i < |s| ==> f(s[i]).Some?
    ensures r.Some? ==> |r.value| == |s| && forall i :: 0 <= i < |s| ==> f(s[i]) == Some(r.value[i])
    decreases |s|
  {
    if |s| == 0 then Some([])
    else
      var init := s[..|s| - 1];
      var rest := Collect(init, f);
      var last := f(s[|s| - 1]);
      assert forall i :: 0 <= i < |init| ==> s[i] == init[i];
      if rest.None? then None
      else if last.None? then None
      else
        var r := rest.value + [last.value];
        assert forall i :: 0 <= i < |init| ==> r[i] == rest.value[i];
        Some(r)
  }
}

=== FILE: server.dfy ===
/** The relay server (server/server.js): one global registry of connected
    clients keyed by a generated id, a router that relays six whitelisted
    message types to a named target, and the client-list broadcast that
    follows every connect and every close. */
module Server {
  import opened Wrappers
  import opened Json

  type Id = string

  /** `WebSocket.readyState`. */
  datatype ReadyState = Connecting | Open | Closing | Closed

  /** The `clients` map. A socket matters here only through its ready state;
      `order` is the map's insertion order, which both `clients.keys()` and
      `clients.forEach` follow. */
  datatype Registry = Registry(sockets: map<Id, ReadyState>, order: seq<Id>)

  predicate NoDuplicates(ids: seq<Id>) {
    forall i, j :: 0 <= i < j < |ids| ==> ids[i] != ids[j]
  }

  /** `order` lists every key of the map exactly once. */
  ghost predicate Valid(reg: Registry) {
    && NoDuplicates(reg.order)
    && (forall id :: id in reg.sockets <==> id in reg.order)
  }

  /** The registry when the server starts. */
  const Empty: Registry := Registry(map[], [])

  /** One `ws.send`: the message and the id of the socket it went out on. */
  datatype Delivery = Delivery(to: Id, msg: Value)

  /** A registry change together with everything sent while making it. */
  datatype Reaction = Reaction(registry: Registry, sent: seq<Delivery>)

  predicate IsOpen(reg: Registry, id: Id) {
    id in reg.sockets && reg.sockets[id] == Open
  }

  /** `clients.set(id, ...)`: a new id goes to the end of the order, an id
      already present keeps its place and has its socket replaced. */
  function Put(reg: Registry, id: Id, state: ReadyState): (r: Registry)
    ensures r.sockets.Keys == reg.sockets.Keys + {id}
    ensures r.sockets[id] == state
    ensures forall k :: k in reg.sockets && k != id ==> r.sockets[k] == reg.sockets[k]
    ensures id in reg.sockets ==> r.order == reg.order
    ensures id !in reg.sockets ==> r.order == reg.order + [id]
    ensures Valid(reg) ==> Valid(r)
  {
    Registry(reg.sockets[id := state], if id in reg.sockets then reg.order else reg.order + [id])
  }

  /** `ids` without `id`, in the same order. */
  function Without(ids: seq<Id>, id: Id): (r: seq<Id>)
    ensures forall x :: x in r <==> x in ids && x != id
    ensures NoDuplicates(ids) ==> NoDuplicates(r)
    ensures id !in ids ==> r == ids
    ensures forall k :: 0 <= k < |ids| && ids[k] == id && NoDuplicates(ids) ==> r == ids[..k] + ids[k + 1..]
  {
    if |ids| == 0 then []
    else
      var rest := Without(ids[1..], id);
      assert NoDuplicates(ids) ==> NoDuplicates(ids[1..]) && ids[0] !in ids[1..];
      assert id !in ids ==> id !in ids[1..];
      ConsSplice(ids);
      if ids[0] == id then rest else [ids[0]] + rest
  }

  /** Removing position `k > 0` from `ids` is removing position `k - 1` from
      its tail, behind the head. */
  lemma ConsSplice(ids: seq<Id>)
    requires |ids| > 0
    ensures forall k :: 0 < k < |ids| ==> ids[1..][k - 1] == ids[k]
    ensures forall k :: 0 < k < |ids| ==> [ids[0]] + (ids[1..][..k - 1] + ids[1..][k..]) == ids[..k] + ids[k + 1..]
  {
    forall k | 0 < k < |ids|
      ensures [ids[0]] + (ids[1..][..k - 1] + ids[1..][k..]) == ids[..k] + ids[k + 1..]
    {
      assert ids[..k] == [ids[0]] + ids[1..][..k - 1];
      assert ids[1..][k..] == ids[k + 1..];
    }
  }

  /** `clients.delete(id)`; nothing changes when `id` is absent. */
  function Remove(reg: Registry, id: Id): (r: Registry)
    ensures r.sockets.Keys == reg.sockets.Keys - {id}
    ensures forall k :: k in r.sockets ==> r.sockets[k] == reg.sockets[k]
    ensures Valid(reg) ==> Valid(r)
    ensures id !in reg.order ==> r.order == reg.order
    ensures forall k :: 0 <= k < |reg.order| && reg.order[k] == id && Valid(reg) ==> r.order == reg.order[..k] + reg.order[k + 1..]
  {
    Registry(reg.sockets - {id}, Without(reg.order, id))
  }

  /** The `init` message a new client receives. */
  function InitMessage(id: Id, totalClients: nat): (v: Value)
    ensures v.Obj? && v.fields.Keys == {"type", "clientId", "totalClients"}
    ensures Member(v, "type") == Some(Str("init"))
    ensures Member(v, "clientId") == Some(Str(id))
    ensures Member(v, "totalClients") == Some(Num(totalClients))
  {
    Obj(map["type" := Str("init"), "clientId" := Str(id), "totalClients" := Num(totalClients)])
  }

  /** The `client-list` message: every registered id, in insertion order. */
  function ClientListMessage(reg: Registry): (v: Value)
    ensures v.Obj? && v.fields.Keys == {"type", "clients"}
    ensures Member(v, "type") == Some(Str("client-list"))
    ensures Member(v, "clients").Some? && Member(v, "clients").value.Arr?
    ensures var items := Member(v, "clients").value.items;
      |items| == |reg.order| && forall i :: 0 <= i < |items| ==> items[i] == Str(reg.order[i])
  {
    Obj(map["type" := Str("client-list"), "clients" := Strings(reg.order)])
  }

  /** `msg` sent to each of `ids` whose socket is open, in the order of `ids`. */
  function SendToOpen(reg: Registry, ids: seq<Id>, msg: Value): (out: seq<Delivery>)
    ensures forall d :: d in out ==> d.msg == msg && d.to in ids && IsOpen(reg, d.to)
    ensures forall id :: id in ids && IsOpen(reg, id) ==> Delivery(id, msg) in out
    ensures NoDuplicates(ids) ==> forall i, j :: 0 <= i < j < |out| ==> out[i].to != out[j].to
  {
    if |ids| == 0 then []
    else
      var rest := SendToOpen(reg, ids[1..], msg);
      if IsOpen(reg, ids[0]) then [Delivery(ids[0], msg)] + rest else rest
  }

  /** `broadcastClientList`: the same `client-list` message to every open
      client, exactly once each, and to no other. */
  function Broadcast(reg: Registry): (out: seq<Delivery>)
    requires Valid(reg)
    ensures forall d :: d in out ==> d.msg == ClientListMessage(reg) && IsOpen(reg, d.to)
    ensures forall id :: IsOpen(reg, id) ==> Delivery(id, ClientListMessage(reg)) in out
    ensures forall i, j :: 0 <= i < j < |out| ==> out[i].to != out[j].to
  {
    SendToOpen(reg, reg.order, ClientListMessage(reg))
  }

  /** The connection handler: register the new socket under `id` (replacing a
      socket that already had that id), send it `init` with the number of
      registered clients, then broadcast the client list. */
  function OnConnect(reg: Registry, id: Id): (r: Reaction)
    requires Valid(reg)
    ensures Valid(r.registry)
    ensures r.registry.sockets.Keys == reg.sockets.Keys + {id} && r.registry.sockets[id] == Open
    ensures forall k :: k in reg.sockets && k != id ==> r.registry.sockets[k] == reg.sockets[k]
    ensures r.registry.order == if id in reg.sockets then reg.order else reg.order + [id]
    ensures |r.sent| >= 1 && r.sent[0] == Delivery(id, InitMessage(id, |r.registry.sockets|))
    ensures r.sent[1..] == Broadcast(r.registry)
    ensures forall d :: d in r.sent[1..] ==> d.msg == ClientListMessage(r.registry) && IsOpen(r.registry, d.to)
    ensures forall k :: IsOpen(r.registry, k) ==> Delivery(k, ClientListMessage(r.registry)) in r.sent[1..]
    ensures forall i, j :: 1 <= i < j < |r.sent| ==> r.sent[i].to != r.sent[j].to
  {
    var reg' := Put(reg, id, Open);
    var sent := [Delivery(id, InitMessage(id, |reg'.sockets|))] + Broadcast(reg');
    assert sent[1..] == Broadcast(reg');
    Reaction(reg', sent)
  }

  /** The close handler: forget `id`, then broadcast the client list to the
      clients that remain. */
  function OnClose(reg: Registry, id: Id): (r: Reaction)
    requires Valid(reg)
    ensures Valid(r.registry)
    ensures r.registry.sockets.Keys == reg.sockets.Keys - {id}
    ensures forall k :: k in r.registry.sockets ==> r.registry.sockets[k] == reg.sockets[k]
    ensures r.registry.order == Without(reg.order, id)
    ensures forall k :: 0 <= k < |reg.order| && reg.order[k] == id ==> r.registry.order == reg.order[..k] + reg.order[k + 1..]
    ensures r.sent == Broadcast(r.registry)
    ensures forall d :: d in r.sent ==> d.msg == ClientListMessage(r.registry) && IsOpen(r.registry, d.to) && d.to != id
    ensures forall k :: IsOpen(r.registry, k) ==> Delivery(k, ClientListMessage(r.registry)) in r.sent
    ensures forall i, j :: 0 <= i < j < |r.sent| ==> r.sent[i].to != r.sent[j].to
  {
    var reg' := Remove(reg, id);
    Reaction(reg', Broadcast(reg'))
  }

  /** The message types the router relays. */
  const RelayedTypes: set<string> :=
    {"signal", "file-offer", "file-accept", "file-reject", "file-chunk", "file-complete"}

  /** The fields copied from the incoming message, beyond `type` and `senderId`. */
  function CopiedFields(t: string): set<string> {
    if t == "signal" then {"signal"}
    else if t == "file-offer" then {"fileName", "fileSize", "fileType"}
    else if t == "file-chunk" then {"chunk", "chunkIndex", "totalChunks"}
    else {}
  }

  /** The message the router builds for type `t` from `data`, once serialised:
      `type`, the authenticated `senderId`, and those whitelisted fields that
      `data` has (a missing one is `undefined`, which `JSON.stringify` drops). */
  function Rebuild(t: string, senderId: Id, data: map<string, Value>): (m: Value)
    ensures m.Obj?
    ensures m.fields.Keys == {"type", "senderId"} + (CopiedFields(t) * data.Keys)
    ensures m.fields["type"] == Str(t) && m.fields["senderId"] == Str(senderId)
    ensures forall k :: k in CopiedFields(t) && k in data ==> m.fields[k] == data[k]
    ensures "targetId" !in m.fields
  {
    var copied := map k | k in CopiedFields(t) && k in data :: data[k];
    Obj(copied + map["type" := Str(t), "senderId" := Str(senderId)])
  }

  /** `forwardToClient`: one delivery when `target` names a registered client
      whose socket is open, nothing otherwise. */
  function Forward(reg: Registry, target: Option<Value>, msg: Value): (out: seq<Delivery>)
    ensures |out| <= 1
    ensures |out| == 1 <==> target.Some? && target.value.Str? && IsOpen(reg, target.value.s)
    ensures forall d :: d in out ==> d == Delivery(target.value.s, msg)
  {
    match target
    case Some(Str(t)) => if IsOpen(reg, t) then [Delivery(t, msg)] else []
    case _ => []
  }

  /** The relayed type of `data`, if it is an object whose `type` is one. */
  function RelayedType(data: Value): (t: Option<string>)
    ensures t.Some? ==> data.Obj? && t.value in RelayedTypes && Member(data, "type") == Some(Str(t.value))
    ensures t.None? ==> forall s :: s in RelayedTypes ==> Member(data, "type") != Some(Str(s))
  {
    match Member(data, "type")
    case Some(Str(s)) => if s in RelayedTypes then Some(s) else None
    case _ => None
  }

  /** `handleMessage`: a message of a relayed type from `senderId` is rebuilt
      and forwarded to its `targetId`; anything else is ignored. */
  function HandleMessage(reg: Registry, senderId: Id, data: Value): (out: seq<Delivery>)
    ensures |out| <= 1
    ensures RelayedType(data).None? ==> out == []
    ensures |out| == 1 <==>
      RelayedType(data).Some? && Member(data, "targetId").Some? && Member(data, "targetId").value.Str?
      && IsOpen(reg, Member(data, "targetId").value.s)
    ensures |out| == 1 ==>
      && out[0].to == Member(data, "targetId").value.s
      && out[0].msg == Rebuild(RelayedType(data).value, senderId, data.fields)
  {
    match RelayedType(data)
    case None => []
    case Some(t) => Forward(reg, Member(data, "targetId"), Rebuild(t, senderId, data.fields))
  }

  /** A frame from `senderId`: `None` is text that `JSON.parse` rejected, which
      the handler catches and ignores. The registry never changes. */
  function OnMessage(reg: Registry, senderId: Id, frame: Option<Value>): (r: Reaction)
    ensures r.registry == reg
    ensures frame.None? ==> r.sent == []
    ensures frame.Some? ==> r.sent == HandleMessage(reg, senderId, frame.value)
  {
    match frame
    case None => Reaction(reg, [])
    case Some(data) => Reaction(reg, HandleMessage(reg, senderId, data))
  }

  /** What the server reacts to. `StateChanged` is the socket library moving a
      socket to another ready state, which a later `Disconnected` may follow. */
  datatype Event =
    | Connected(id: Id)
    | Message(from: Id, frame: Option<Value>)
    | Disconnected(id: Id)
    | StateChanged(id: Id, state: ReadyState)

  function Step(reg: Registry, e: Event): (r: Reaction)
    requires Valid(reg)
    ensures Valid(r.registry)
    ensures e.Message? ==> r.registry == reg
  {
    match e
    case Connected(id) => OnConnect(reg, id)
    case Message(from, frame) => OnMessage(reg, from, frame)
    case Disconnected(id) => OnClose(reg, id)
    case StateChanged(id, state) =>
      if id in reg.sockets then Reaction(Put(reg, id, state), []) else Reaction(reg, [])
  }

  /** The registry holding just `a`, open: what the first connection leaves. */
  function Single(a: Id): (r: Registry)
    ensures Valid(r) && IsOpen(r, a)
  {
    Registry(map[a := Open], [a])
  }

  /** The first client to join an empty server is registered alone. */
  lemma FirstClientAlone(a: Id)
    ensures OnConnect(Empty, a).registry == Single(a)
  {
    ConnectedRegistry(Empty, a, Single(a));
  }

  /** The scenario of a second client joining: its `init` counts two clients,
      and both clients receive the list `[a, b]`. */
  lemma {:induction false} TwoClientsSeeEachOther(a: Id, b: Id)
    requires a != b
    ensures var second := OnConnect(Single(a), b);
            && second.registry.order == [a, b]
            && second.sent[0] == Delivery(b, InitMessage(b, 2))
            && Delivery(a, ClientListMessage(second.registry)) in second.sent[1..]
            && Delivery(b, ClientListMessage(second.registry)) in second.sent[1..]
  {
    var two := Registry(map[a := Open, b := Open], [a, b]);
    ConnectedRegistry(Single(a), b, two);
    assert |two.sockets| == 2 by {
      assert two.sockets.Keys == {a, b};
      assert |{a, b}| == 2;
    }
    assert IsOpen(two, a) && IsOpen(two, b);
  }

  /** The registry after a connect, when it is known in advance. */
  lemma ConnectedRegistry(reg: Registry, id: Id, expected: Registry)
    requires Valid(reg) && id !in reg.sockets
    requires expected.sockets == reg.sockets[id := Open] && expected.order == reg.order + [id]
    ensures OnConnect(reg, id).registry == expected
  {
    var r := OnConnect(reg, id).registry;
    assert r.sockets == expected.sockets;
  }

  /** A base-36 digit. */
  type Digit36 = d: int | 0 <= d < 36

  /** How `Number.prototype.toString(36)` writes a digit. */
  function DigitChar(d: Digit36): char {
    if d < 10 then ('0' as int + d) as char else ('a' as int + (d - 10)) as char
  }

  /** `Math.random().toString(36)`, given the base-36 digits of the random
      fraction that the runtime prints: `"0"` for zero, otherwise `"0."`
      followed by the digits. */
  function RandomText(fraction: seq<Digit36>): string {
    if |fraction| == 0 then "0"
    else "0." + seq(|fraction|, i requires 0 <= i < |fraction| => DigitChar(fraction[i]))
  }

  function Clamp(x: int, lo: int, hi: int): int
    requires lo <= hi
  {
    if x < lo then lo else if x > hi then hi else x
  }

  /** `String.prototype.substring`: both ends clamped to the string, swapped
      when out of order. */
  function Substring(s: string, start: int, end: int): (r: string)
    ensures |r| <= |s|
    ensures 0 <= start <= end <= |s| ==> r == s[start..end]
    ensures 0 <= end <= start <= |s| ==> r == s[end..start]
  {
    var a, b := Clamp(start, 0, |s|), Clamp(end, 0, |s|);
    if a <= b then s[a..b] else s[b..a]
  }

  /** `substring` does not care which end comes first. */
  lemma SubstringSwap(s: string, a: int, b: int)
    ensures Substring(s, a, b) == Substring(s, b, a)
  {
  }

  /** An end outside the string counts as the nearest end of the string. */
  lemma SubstringClamps(s: string, a: int, b: int)
    ensures Substring(s, a, b) == Substring(s, Clamp(a, 0, |s|), Clamp(b, 0, |s|))
  {
  }

  /** Upper-casing of one character, for the ASCII letters only: the
      characters a base-36 digit string can hold. */
  function UpperChar(c: char): char {
    if 'a' <= c <= 'z' then (c as int - 32) as char else c
  }

  function ToUpper(s: string): (r: string)
    ensures |r| == |s|
    ensures forall i :: 0 <= i < |s| && 'a' <= s[i] <= 'z' ==> r[i] as int == s[i] as int - 32 && 'A' <= r[i] <= 'Z'
    ensures forall i :: 0 <= i < |s| && !('a' <= s[i] <= 'z') ==> r[i] == s[i]
  {
    seq(|s|, i requires 0 <= i < |s| => UpperChar(s[i]))
  }

  predicate IsIdChar(c: char) {
    '0' <= c <= '9' || 'A' <= c <= 'Z'
  }

  /** `generateId`, with the digits of `Math.random()` as a parameter: the
      first six digits of the fraction, upper-cased. An id has at most six
      characters, all from `0-9A-Z`, and is shorter when the fraction is. */
  function GenerateId(fraction: seq<Digit36>): (id: Id)
    ensures |id| <= 6
    ensures forall i :: 0 <= i < |id| ==> IsIdChar(id[i])
    ensures |id| == if |fraction| < 6 then |fraction| else 6
    ensures forall i :: 0 <= i < |id| ==> id[i] == UpperChar(DigitChar(fraction[i]))
  {
    var text := RandomText(fraction);
    var digits := Substring(text, 2, 8);
    assert |digits| == if |fraction| < 6 then |fraction| else 6;
    assert forall i :: 0 <= i < |digits| ==> digits[i] == text[i + 2] == DigitChar(fraction[i]);
    var id := ToUpper(digits);
    assert forall i :: 0 <= i < |id| ==> id[i] == UpperChar(DigitChar(fraction[i])) && IsIdChar(id[i]);
    id
  }
}

=== FILE: session.dfy ===
/** The relay and two clients together: what a client sends arrives, through
    the server's whitelist router, as the message the peer's handlers expect;
    and a file offered, accepted and streamed in chunks that arrive in any
    order ends up, byte for byte, in the receiver's list. */
module Session {
  import opened Wrappers
  import opened Json
  import opened Messages
  import opened Seqs
  import opened Base64
  import Server
  import Client
  import Chunking
  import Reassembly

  /** The router recognises the type of every outbound message. */
  lemma KindIsRelayed(m: Outbound)
    ensures Server.RelayedType(OutboundJson(m)) == Some(Kind(m))
  {
    assert Json.Member(OutboundJson(m), "type") == Some(Str(Kind(m)));
  }

  /** The router rebuilds every outbound message into exactly the inbound
      message the client parses: the same payload fields, the sender's id,
      and no `targetId`. */
  lemma RebuildIsRelayed(sender: string, m: Outbound)
    ensures Server.Rebuild(Kind(m), sender, OutboundJson(m).fields) == InboundJson(Relayed(sender, m))
  {
    match m
    case OfferOut(t, name, size, kind) => OfferRebuilt(sender, t, name, size, kind);
    case ChunkOut(t, chunk, i, n) => ChunkRebuilt(sender, t, chunk, i, n);
    case AcceptOut(_) => BareRebuilt(Kind(m), sender, OutboundJson(m).fields);
    case RejectOut(_) => BareRebuilt(Kind(m), sender, OutboundJson(m).fields);
    case CompleteOut(_) => BareRebuilt(Kind(m), sender, OutboundJson(m).fields);
  }

  lemma OfferRebuilt(sender: string, t: string, name: string, size: nat, kind: string)
    ensures Server.Rebuild("file-offer", sender, OutboundJson(OfferOut(t, name, size, kind)).fields)
      == InboundJson(Offer(sender, name, size, kind))
  {
    var data := OutboundJson(OfferOut(t, name, size, kind)).fields;
    var expected := InboundJson(Offer(sender, name, size, kind)).fields;
    assert Server.CopiedFields("file-offer") == {"fileName", "fileSize", "fileType"} <= data.Keys;
    assert expected.Keys == {"type", "senderId"} + {"fileName", "fileSize", "fileType"};
    RebuiltAs("file-offer", sender, data, expected);
  }

  lemma ChunkRebuilt(sender: string, t: string, chunk: string, i: nat, n: nat)
    ensures Server.Rebuild("file-chunk", sender, OutboundJson(ChunkOut(t, chunk, i, n)).fields)
      == InboundJson(Chunk(sender, chunk, i, n))
  {
    var data := OutboundJson(ChunkOut(t, chunk, i, n)).fields;
    var expected := InboundJson(Chunk(sender, chunk, i, n)).fields;
    assert Server.CopiedFields("file-chunk") == {"chunk", "chunkIndex", "totalChunks"} <= data.Keys;
    assert expected.Keys == {"type", "senderId"} + {"chunk", "chunkIndex", "totalChunks"};
    RebuiltAs("file-chunk", sender, data, expected);
  }

  /** The rebuilt message is the object with the type, the sender, and the
      whitelisted fields `data` has, and nothing else. */
  lemma RebuiltAs(t: string, sender: string, data: map<string, Value>, expected: map<string, Value>)
    requires expected.Keys == {"type", "senderId"} + Server.CopiedFields(t) * data.Keys
    requires expected["type"] == Str(t) && expected["senderId"] == Str(sender)
    requires forall k :: k in Server.CopiedFields(t) && k in data ==> expected[k] == data[k]
    ensures Server.Rebuild(t, sender, data) == Obj(expected)
  {
    assert Server.Rebuild(t, sender, data).fields == expected;
  }

  /** A type without payload fields is rebuilt to just its type and sender. */
  lemma BareRebuilt(t: string, sender: string, data: map<string, Value>)
    requires t in {"file-accept", "file-reject", "file-complete"}
    ensures Server.Rebuild(t, sender, data) == Obj(map["type" := Str(t), "senderId" := Str(sender)])
  {
    var built := Server.Rebuild(t, sender, data);
    assert Server.CopiedFields(t) == {};
    assert built.fields.Keys == {"type", "senderId"};
    assert built.fields == map["type" := Str(t), "senderId" := Str(sender)];
  }

  /** Relay transparency: sending `m` from `sender` delivers the inbound form
      of `m` to the client it targets when that client's socket is open,
      and delivers nothing otherwise, in particular when `m` names no target. */
  lemma RelayDelivers(reg: Server.Registry, sender: string, m: Outbound)
    ensures Server.HandleMessage(reg, sender, OutboundJson(m)) ==
      if Target(m).Some? && Server.IsOpen(reg, Target(m).value)
      then [Server.Delivery(Target(m).value, InboundJson(Relayed(sender, m)))]
      else []
  {
    KindIsRelayed(m);
    RebuildIsRelayed(sender, m);
    var data := OutboundJson(m);
    assert Json.Member(data, "targetId") == (match Target(m) case Some(t) => Some(Str(t)) case None => None);
  }

  /** On connecting, a client first receives the `init` message naming its
      id and the number of registered clients, and every open client,
      itself included, receives the `client-list` message naming every
      registered id in registration order. */
  lemma ConnectAnnounces(reg: Server.Registry, id: string)
    requires Server.Valid(reg)
    ensures var r := Server.OnConnect(reg, id);
      && r.sent[0] == Server.Delivery(id, InboundJson(Init(id, |r.registry.sockets|)))
      && id in r.registry.order
      && forall k :: Server.IsOpen(r.registry, k) ==>
           Server.Delivery(k, InboundJson(ClientList(r.registry.order))) in r.sent[1..]
  {
    var r := Server.OnConnect(reg, id);
    ServerMessagesAreInbound(id, |r.registry.sockets|, r.registry);
    assert id in r.registry.sockets;
  }

  /** A client that reads the `init` the server sends on its connection holds
      the id the server assigned it. The `client-list` that follows then shows
      every other registered client, in registration order, and not itself. */
  lemma ClientLearnsItsId(reg: Server.Registry, id: string, c: Client.State)
    requires Server.Valid(reg)
    ensures var r := Server.OnConnect(reg, id);
      var total := |r.registry.sockets|;
      var me := Client.Step(c, Client.Deliver(Init(id, total)));
      var listed := Client.Step(me.state, Client.Deliver(ClientList(r.registry.order)));
      && Parse(r.sent[0].msg) == Some(Init(id, total))
      && me == Client.Reaction(c.(myId := Some(id)), [])
      && listed.state.devices == Client.OtherDevices(r.registry.order, Some(id))
      && id !in listed.state.devices
      && (forall k :: k in r.registry.sockets && k != id ==> k in listed.state.devices)
  {
    var r := Server.OnConnect(reg, id);
    ConnectAnnounces(reg, id);
    ParseInbound(Init(id, |r.registry.sockets|));
    assert Server.Valid(r.registry);
  }

  /** The server's own `init` and `client-list` objects are the inbound
      messages of those types. */
  lemma ServerMessagesAreInbound(id: string, total: nat, reg: Server.Registry)
    ensures Server.InitMessage(id, total) == InboundJson(Init(id, total))
    ensures Server.ClientListMessage(reg) == InboundJson(ClientList(reg.order))
  {
  }

  /** The chunk messages as the receiver gets them from `sender`: chunk `i`
      of `content` as a data URL, numbered `i` of the chunk count. */
  function ChunkMessages(sender: string, content: seq<byte>): (ms: seq<Inbound>)
    ensures |ms| == Chunking.ChunkCount(|content|)
    ensures forall i :: 0 <= i < |ms| ==>
      && ms[i].Chunk? && ms[i].senderId == sender && ms[i].chunkIndex == i
      && ms[i].chunk == Reassembly.SentEntry(content, i).data
  {
    var n := Chunking.ChunkCount(|content|);
    seq(n, i requires 0 <= i < n => Chunk(sender, Reassembly.SentEntry(content, i).data, i, n))
  }

  /** Every chunk of the stream the sender emits, relayed to an open
      receiver, arrives as the matching entry of `ChunkMessages`. */
  lemma StreamArrives(reg: Server.Registry, sender: string, target: string, content: seq<byte>, i: nat)
    requires Server.IsOpen(reg, target)
    requires i < Chunking.ChunkCount(|content|)
    ensures Server.HandleMessage(reg, sender, OutboundJson(Client.ChunkStream(target, content)[i]))
      == [Server.Delivery(target, InboundJson(ChunkMessages(sender, content)[i]))]
  {
    var m := Client.ChunkStream(target, content)[i];
    RelayDelivers(reg, sender, m);
    assert Relayed(sender, m) == ChunkMessages(sender, content)[i];
  }

  /** The relayed chunks are the entries the reassembly expects. */
  lemma ChunkEntriesAreSent(sender: string, content: seq<byte>)
    ensures MapSeq(Client.EntryOf, ChunkMessages(sender, content)) == Reassembly.SentEntries(content)
  {
    var entries := MapSeq(Client.EntryOf, ChunkMessages(sender, content));
    var sent := Reassembly.SentEntries(content);
    forall i | 0 <= i < |sent| ensures entries[i] == sent[i] {
      var m := ChunkMessages(sender, content)[i];
      assert m.Chunk? && m.chunkIndex == i && m.chunk == Reassembly.SentEntry(content, i).data;
    }
  }

  /** Accepting a pending offer empties the buffer and answers the client
      that made the offer. */
  lemma AcceptAnswersOffer(c: Client.State)
    requires c.current.Some? && c.current.value.Receiving?
    ensures Client.Step(c, Client.AcceptClicked) ==
      Client.Reaction(c.(chunks := []), [Client.Send(AcceptOut(Some(c.current.value.senderId)))])
  {
    assert Client.Step(c, Client.AcceptClicked) == Client.AcceptFile(c);
  }

  /** The offer: with a file selected and the socket open, clicking send
      emits one `file-offer` and records the outgoing transfer; the relay
      delivers it to an open target; and the target, parsing it, makes it
      the current incoming transfer with the file's name, its byte count as
      the size, and its type. */
  lemma OfferReachesPeer(reg: Server.Registry, c: Client.State, peer: Client.State, sender: string, target: string)
    requires c.selected.Some? && c.socketOpen && Server.IsOpen(reg, target)
    ensures var f := c.selected.value;
      var sent := Client.Step(c, Client.SendClicked(target));
      var offer := Offer(sender, f.name, |f.content|, f.mimeType);
      && sent.state.current == Some(Client.Sending(target, f))
      && sent.effects == [Client.Send(OfferOut(target, f.name, |f.content|, f.mimeType))]
      && Server.HandleMessage(reg, sender, OutboundJson(sent.effects[0].msg)) == [Server.Delivery(target, InboundJson(offer))]
      && Parse(InboundJson(offer)) == Some(offer)
      && Client.Step(peer, Client.Deliver(offer))
         == Client.Reaction(peer.(current := Some(Client.Receiving(sender, f.name, |f.content|, f.mimeType))), [])
  {
    var f := c.selected.value;
    RelayDelivers(reg, sender, OfferOut(target, f.name, |f.content|, f.mimeType));
    ParseInbound(Offer(sender, f.name, |f.content|, f.mimeType));
  }

  /** The rejection: the receiver of a pending offer clicks reject and drops
      the offer; its `file-reject` reaches the offering client when that
      client's socket is open; there it drops the outgoing transfer with an
      alert, so a `file-accept` arriving later streams nothing. */
  lemma RejectReachesSender(reg: Server.Registry, peer: Client.State, c: Client.State, peerId: string, sender: string, accepter: string)
    requires peer.current.Some? && peer.current.value.Receiving? && peer.current.value.senderId == sender
    requires Server.IsOpen(reg, sender)
    ensures var answered := Client.Step(peer, Client.RejectClicked);
      var back := Client.Step(c, Client.Deliver(Reject(peerId)));
      && answered.state == peer.(current := None)
      && answered.effects == [Client.Send(RejectOut(Some(sender)))]
      && Server.HandleMessage(reg, peerId, OutboundJson(answered.effects[0].msg))
         == [Server.Delivery(sender, InboundJson(Reject(peerId)))]
      && Parse(InboundJson(Reject(peerId))) == Some(Reject(peerId))
      && back == Client.Reaction(c.(current := None), [Client.Alert(Client.TransferRejected)])
      && Client.Step(back.state, Client.Deliver(Accept(accepter))) == Client.Reaction(back.state, [])
  {
    RelayDelivers(reg, peerId, RejectOut(Some(sender)));
    ParseInbound(Reject(peerId));
  }

  /** A whole transfer from the offer on: the sender's offer of the selected
      file is relayed to the peer, which takes it, accepts, receives its
      chunks in any order, then `file-complete`. The peer's received list then starts with the file
      under its own name, type and byte count, holding exactly its bytes. */
  lemma OfferedFileArrivesWhole(reg: Server.Registry, c: Client.State, peer: Client.State, sender: string, target: string, arrived: seq<Inbound>)
    requires c.selected.Some? && c.socketOpen && Server.IsOpen(reg, target)
    requires multiset(arrived) == multiset(ChunkMessages(sender, c.selected.value.content))
    ensures var f := c.selected.value;
      var offered := Client.Step(peer, Client.Deliver(Offer(sender, f.name, |f.content|, f.mimeType))).state;
      var accepted := Client.Step(offered, Client.AcceptClicked).state;
      var filled := Client.Run(accepted, Client.Deliveries(arrived));
      var done := Client.Step(filled.state, Client.Deliver(Complete(sender)));
      && Client.Step(c, Client.SendClicked(target)).effects == [Client.Send(OfferOut(target, f.name, |f.content|, f.mimeType))]
      && Server.HandleMessage(reg, sender, OutboundJson(OfferOut(target, f.name, |f.content|, f.mimeType)))
         == [Server.Delivery(target, InboundJson(Offer(sender, f.name, |f.content|, f.mimeType)))]
      && filled.effects == [] && done.effects == []
      && done.state.received[0] == Client.ReceivedFile(
           Some(f.name), Some(|f.content|), if f.mimeType == "" then Client.OctetStream else f.mimeType, f.content, sender)
      && done.state.received[1..] == peer.received
  {
    var f := c.selected.value;
    OfferReachesPeer(reg, c, peer, sender, target);
    var offered := peer.(current := Some(Client.Receiving(sender, f.name, |f.content|, f.mimeType)));
    TransferDeliversFile(offered, sender, f.content, arrived);
  }

  /** A permutation of chunk messages holds only chunk messages. */
  lemma PermutedChunks(arrived: seq<Inbound>, offered: seq<Inbound>)
    requires forall i :: 0 <= i < |offered| ==> offered[i].Chunk?
    requires multiset(arrived) == multiset(offered)
    ensures forall i :: 0 <= i < |arrived| ==> arrived[i].Chunk?
  {
    forall i | 0 <= i < |arrived| ensures arrived[i].Chunk? {
      assert arrived[i] in multiset(offered);
    }
  }

  /** Every relayed chunk message is a `file-chunk`. */
  lemma ChunkMessagesAreChunks(sender: string, content: seq<byte>)
    ensures forall i :: 0 <= i < |ChunkMessages(sender, content)| ==> ChunkMessages(sender, content)[i].Chunk?
  {
  }

  /** The receiver accepts, then chunk messages arrive in some order: the
      buffer holds their entries in arrival order, as a rearrangement of the
      entries in the order they were offered, and nothing was alerted. */
  lemma ReceiverFills(c: Client.State, arrived: seq<Inbound>, offered: seq<Inbound>)
    requires c.current.Some? && c.current.value.Receiving?
    requires forall i :: 0 <= i < |offered| ==> offered[i].Chunk?
    requires multiset(arrived) == multiset(offered)
    ensures Client.Run(Client.Step(c, Client.AcceptClicked).state, Client.Deliveries(arrived))
      == Client.Reaction(c.(chunks := MapSeq(Client.EntryOf, arrived)), [])
    ensures multiset(MapSeq(Client.EntryOf, arrived)) == multiset(MapSeq(Client.EntryOf, offered))
  {
    var accepted := Client.Step(c, Client.AcceptClicked);
    assert accepted == Client.AcceptFile(c);
    assert accepted.state == c.(chunks := []);
    PermutedChunks(arrived, offered);
    Client.ChunksAccumulate(accepted.state, arrived);
    assert [] + MapSeq(Client.EntryOf, arrived) == MapSeq(Client.EntryOf, arrived);
    MapSeqPermutation(Client.EntryOf, arrived, offered);
  }

  /** The receiver end of a transfer: with an offer from `sender` pending,
      the user accepts (see `AcceptAnswersOffer`), the chunks of `content`
      arrive in any order, then `file-complete`. The file is then first in
      the received list with the offer's name, size and type and exactly
      the bytes of `content`; no alert is raised, and the buffer and the
      transfer slot are empty again. */
  lemma TransferDeliversFile(c: Client.State, sender: string, content: seq<byte>, arrived: seq<Inbound>)
    requires c.current.Some? && c.current.value.Receiving? && c.current.value.senderId == sender
    requires multiset(arrived) == multiset(ChunkMessages(sender, content))
    ensures var accepted := Client.Step(c, Client.AcceptClicked).state;
      var filled := Client.Run(accepted, Client.Deliveries(arrived));
      var done := Client.Step(filled.state, Client.Deliver(Complete(sender)));
      && filled.effects == []
      && done.effects == []
      && done.state.received == [Client.ReceivedFrom(c.current.value, content, sender)] + c.received
      && done.state.chunks == [] && done.state.current == None
  {
    var offered := ChunkMessages(sender, content);
    ChunkMessagesAreChunks(sender, content);
    ReceiverFills(c, arrived, offered);
    var entries := MapSeq(Client.EntryOf, arrived);
    ChunkEntriesAreSent(sender, content);
    Reassembly.ReassemblyRestoresFile(content, entries);
    Client.CompleteStores(c.(chunks := entries), sender, content);
  }

  /** When only the first `k` chunks arrive before `file-complete`, the
      receiver stores the shorter file, still under the offer's declared
      size, and raises no alert. */
  lemma TruncatedTransferGoesUnnoticed(c: Client.State, sender: string, content: seq<byte>, k: nat, arrived: seq<Inbound>)
    requires c.current.Some? && c.current.value.Receiving?
    requires k <= Chunking.ChunkCount(|content|)
    requires multiset(arrived) == multiset(ChunkMessages(sender, content)[..k])
    ensures var accepted := Client.Step(c, Client.AcceptClicked).state;
      var filled := Client.Run(accepted, Client.Deliveries(arrived)).state;
      var done := Client.Step(filled, Client.Deliver(Complete(sender)));
      && done.effects == []
      && done.state.received[0].content == content[..Min(k * Chunking.ChunkSize, |content|)]
      && done.state.received[0].size == Some(c.current.value.fileSize)
  {
    var all := ChunkMessages(sender, content);
    var offered := all[..k];
    ChunkMessagesAreChunks(sender, content);
    ReceiverFills(c, arrived, offered);
    var entries := MapSeq(Client.EntryOf, arrived);
    ChunkEntriesAreSent(sender, content);
    MapSeqPrefix(Client.EntryOf, all, k);
    var prefix := content[..Min(k * Chunking.ChunkSize, |content|)];
    Reassembly.ReassemblyOfFirstChunks(content, k, entries);
    Client.CompleteStores(c.(chunks := entries), sender, prefix);
  }
}

=== FILE: wrappers.dfy ===
/** The optional-value datatype used across the model: `None` stands for a
    JavaScript `undefined`/`null`, or for an operation that did not succeed. */
module Wrappers {

  datatype Option<+T> = None | Some(value: T) {

    /** The wrapped value, or `default` when there is none. */
    function GetOr(default: T): T {
      match this
      case Some(v) => v
      case None => default
    }
  }
}
